=== FILE: README.md ===
# The CrossTeX plain style, modelled in Dafny

This project models the rendering core of CrossTeX's plain bibliography style
(`crosstex/style/plain.py`). The plain style turns a list of citations into a
bibliography document, in one of three output formats:

- **Formatters.** The three output formats are LaTeX `.bbl`, plain text and HTML. Each one is a
  formatter that supplies a header, a footer, an item wrapper, a block wrapper that strips the
  text, a block separator and emphasis (module `Formatters`).
- **Field renderers.** These turn one field of a record into text under the style's presentation
  flags (module `Fields`):
  - plain values and objects with short and long names;
  - authors, titles and their casing flags;
  - booktitles, journals, pages, addresses and months.
- **Record renderers.** There are six: article, book, inproceedings, misc, techreport and url
  (module `Records`). Each renderer builds up to three blocks:
  - an author block;
  - a title block;
  - a detail block, made by punctuating the present fields onto one another.

  Empty blocks are then dropped and the rest are joined with the formatter's separator. Every
  renderer is written twice:
  - as a method that follows the source statement by statement;
  - as a declarative reference (`ArticleEntry`, `BookEntry`, ...). For the first five kinds the
    reference lists the detail fragments present, in order, and chains them. The url reference
    has no chain: its detail is the link, followed by the access date when all three date parts
    are present.

  The method's contract says that it computes the reference, together with properties of the
  result such as which blocks are present and what ends the entry.
- **Citation driver** (module `Engine`):
  - style construction;
  - the renderer lookup (`_callback`);
  - label planning: fallback labels sized by the digit count of the citation list, or generated
    labels sized by the longest one;
  - formatting of the `etalchar` marker;
  - the `render` loop, which produces the label map and the document;
  - the sort key.

The supporting modules are small:

- `Base` holds `Option`, `Result` and the error values. They stand for the source's
  exceptions: an unsupported citation kind, sorting by chosen fields, an unknown format name, and
  `max` of an empty label list.
- `Text` holds Python's `str.strip` (with Python 2's Unicode whitespace set), `sep.join`,
  `"".join` as a running `+=`, and Python's string order.

The helpers the style calls from other modules are parameters, gathered in the
`Fields.Externals` and `Engine.LabelGenerators` datatypes. They include:

- `punctuate`;
- the name helpers and `list_comma_and`;
- the title-casing helpers;
- `to_latex`;
- label generation;
- `str.format` on labels that contain a brace.

Every property is stated for all choices of these helpers.

The HTML formatter's block wraps even empty text in `<span></span>`, so an HTML entry always
ends with its detail block, even for a record without any detail field
(`Records.HtmlEntryKeepsDetail`, `Records.EmptyMisc`).

## Model

| member | source | states |
|---|---|---|
| Text.Strip | crosstex/style/plain.py:23-24 | the stripped text starts and ends with a non-whitespace character, and it is empty exactly when the input is all whitespace |
| Text.StripPadded | crosstex/style/plain.py:23-24 | stripping whitespace padding off a trimmed text gives that text back, so `Strip` is exactly Python's `strip` |
| Text.StripSplit | crosstex/style/plain.py:23-24 | every string is its strip with whitespace on both sides |
| Text.StripIdempotent | crosstex/style/plain.py:46-47 | stripping twice is the same as stripping once |
| Text.StripIgnoresPadding | crosstex/style/plain.py:46-47 | extra whitespace around a text does not change its strip |
| Text.NonEmpty | crosstex/style/plain.py:268 | the filtered list holds no empty part, is no longer than the input, and holds exactly the input's non-empty parts |
| Text.NonEmptyOne | crosstex/style/plain.py:268 | a single part survives the filter exactly when it is non-empty |
| Text.NonEmptyAppend | crosstex/style/plain.py:268 | filtering two runs of parts is filtering each run, one after the other, so the surviving parts keep their order |
| Text.JoinSnoc | crosstex/style/plain.py:268 | joining one more part adds the separator and then the part |
| Text.ConcatAppend | crosstex/style/plain.py:137-146 | the text built by `+=` over two runs of parts is the text of each run, one after the other |
| Text.LexLessTotal | crosstex/style/plain.py:129 | two distinct strings are always ordered one way or the other |
| Text.LengthThenLexLessTransitive | crosstex/style/plain.py:129 | the order on `(len(l), l)` pairs is transitive |
| Text.LengthThenLexLessTotal | crosstex/style/plain.py:129 | the order on `(len(l), l)` pairs is total and asymmetric |
| Formatters.FormatByName | crosstex/style/plain.py:83-93 | a formatter is found exactly for the names bbl, txt and html, and it is the one registered under that name; any other name fails |
| Formatters.FormatByNameRoundTrip | crosstex/style/plain.py:83-89 | every formatter is found again under its own key, and that key is among the style's formats |
| Formatters.EtalChar | crosstex/style/plain.py:9-58 | the et-al marker: `{\etalchar{+}}` for bbl and a plain `+` for txt and html; what it does to labels is stated by `Engine.FormatLabels` and `Engine.FormatLabelKeepsPlain` |
| Formatters.Header | crosstex/style/plain.py:11-61 | the document's opening text; its properties are stated by `Formatters.HeaderFooterFrame` |
| Formatters.Footer | crosstex/style/plain.py:15-64 | the document's closing text; its properties are stated by `Formatters.HeaderFooterFrame` |
| Formatters.HeaderFooterFrame | crosstex/style/plain.py:11-64 | only the bbl header depends on the longest label, and it ends by opening the bibliography environment sized by that label, which the bbl footer closes; HTML frames the document in a table; txt has no frame |
| Formatters.Item | crosstex/style/plain.py:18-69 | one bibliography item around a rendered entry; its shape in each format is stated by `Formatters.BblItemShape`, `Formatters.TxtItemShape` and `Formatters.HtmlItemShape` |
| Formatters.BlockSep | crosstex/style/plain.py:26-75 | the separator between blocks; its property is stated by `Formatters.BlockSepStartsWithSpace` |
| Formatters.BlockSepStartsWithSpace | crosstex/style/plain.py:26-75 | every separator is non-empty and starts with whitespace, so joined blocks never run into each other |
| Formatters.Emph | crosstex/style/plain.py:29-78 | emphasis of stripped text; its properties are stated by `Formatters.EmphIgnoresPadding` and `Formatters.TxtEmphIsPlain` |
| Formatters.EmphIgnoresPadding | crosstex/style/plain.py:29-78 | in every format, emphasis does not depend on whitespace around its text |
| Formatters.TxtEmphIsPlain | crosstex/style/plain.py:52-53 | plain text has no emphasis markup: emphasised text is the bare stripped text, empty exactly when the text is whitespace |
| Formatters.Block | crosstex/style/plain.py:23-72 | a bbl or txt block is trimmed, and it is empty exactly when the text is all whitespace; an HTML block is never empty |
| Formatters.BlockIgnoresPadding | crosstex/style/plain.py:23-72 | a block, in any of the three formats, does not depend on whitespace around its text |
| Formatters.BlockIdempotent | crosstex/style/plain.py:46-47 | wrapping a bbl or txt block again changes nothing |
| Formatters.HtmlEmptyBlock | crosstex/style/plain.py:71-72 | the HTML block of empty text is `<span></span>` |
| Formatters.HtmlBlockNesting | crosstex/style/plain.py:71-72 | wrapping an HTML block again nests it inside another span |
| Formatters.BblItemShape | crosstex/style/plain.py:18-21 | the bbl item brackets the label exactly when the label is non-empty, and it holds the key and the LaTeX-escaped entry |
| Formatters.TxtItemShape | crosstex/style/plain.py:37-44 | the txt item is the entry on a line of its own; the txt header and footer are empty |
| Formatters.HtmlItemShape | crosstex/style/plain.py:66-69 | the HTML item ends with the entry followed by the closing of its text cell and row |
| Fields.RenderStr | crosstex/style/plain.py:157-164 | a plain value or a short or long name; its property is stated by `Fields.RenderStrChoice` |
| Fields.RenderStrChoice | crosstex/style/plain.py:157-164 | a plain value ignores the flags; an object gives its short name exactly when `short-<which>` is set, and otherwise its long name |
| Fields.RenderAuthor | crosstex/style/plain.py:166-173 | `list_comma_and` of the reordered author names; that the text depends only on the ordered names and on `short-author` is stated by `Fields.RenderAuthorByNames` |
| Fields.RenderAuthorByNames | crosstex/style/plain.py:166-173 | the author text depends only on the authors' names, in order, and on whether `short-author` is set; it does not matter whether a name was parsed or given verbatim, or which other flags are set |
| Fields.RenderTitle | crosstex/style/plain.py:175-185 | the title under the casing flags; its properties are stated by `Fields.TitlePrecedence` and `Fields.TitleVerbatimByDefault` |
| Fields.TitlePrecedence | crosstex/style/plain.py:175-185 | the casing of the first title flag present, in the order default, upper, title, lower, wins over any later flag |
| Fields.TitleVerbatimByDefault | crosstex/style/plain.py:175-185 | without a title flag the title is used verbatim |
| Fields.RenderBooktitle | crosstex/style/plain.py:187-193 | a workshop or conference gives its short or long name under its own flag; a plain value is used as is |
| Fields.RenderJournal | crosstex/style/plain.py:195-196 | the journal's short name under `short-journal` and its long name otherwise; a plain value is used as is |
| Fields.RenderMonth | crosstex/style/plain.py:228-229 | the month's short name under `short-month` and its long name otherwise; a plain value is used as is |
| Fields.RenderPages | crosstex/style/plain.py:198-203 | the page phrase; its properties are stated by `Fields.PagesPhraseRoundTrip` |
| Fields.PagesPhraseRoundTrip | crosstex/style/plain.py:198-203 | the phrase is plural exactly for a range and ends with the pages value, which can be read back from the phrase |
| Fields.RenderAddress | crosstex/style/plain.py:205-222 | a country gives its name; a state gives its name, then ", " and its country when it has one; a plain value is used as is |
| Fields.JoinPresent | crosstex/style/plain.py:222 | joining the parts that are not None, for each of the eight combinations of absent parts |
| Fields.LocationJoin | crosstex/style/plain.py:207-222 | a location lists the city, state and country that are present, in that order, separated by ", " |
| Records.KindOf | crosstex/style/plain.py:149-153 | a record's kind names a renderer exactly when the record is one of the six rendered kinds |
| Records.ChainSnoc | crosstex/style/plain.py:284-289 | one more detail fragment is one more punctuate-then-append step at the end of the chain |
| Records.ChainStep | crosstex/style/plain.py:286-289 | an optional fragment is punctuated onto the text when it is truthy, and otherwise leaves the text unchanged |
| Records.HeadBlocks | crosstex/style/plain.py:242-245 | a head block is present exactly when its text is non-empty and, for bbl and txt, the punctuated text is not all whitespace; a present block is the punctuated text, wrapped |
| Records.CloseEntry | crosstex/style/plain.py:266-268 | for each of the seven combinations of present blocks, the entry is those blocks in the order author, title, detail with the separator between neighbours only; a non-empty detail block ends the entry |
| Records.ArticleVolNumPages | crosstex/style/plain.py:250-260 | `volume(number):pages` when a volume or number is present; the page phrase for pages alone; empty otherwise |
| Records.JournalVenue | crosstex/style/plain.py:246-249 | empty without a journal; otherwise it ends with the emphasised journal, which is preceded by exactly "In " under `add-in` and by nothing without it |
| Records.RenderArticle | crosstex/style/plain.py:231-268 | the article entry is the reference composition: journal, then volume/number/pages and year, each punctuated onto the text before it |
| Records.RenderBook | crosstex/style/plain.py:270-292 | the book entry is the reference composition: publisher, then address and year |
| Records.ProceedingsVenue | crosstex/style/plain.py:309-316 | empty without a truthy booktitle; otherwise it ends with the emphasised booktitle punctuated with a comma, preceded by "In " under `add-in` and then "Proceedings of the " under `add-proceedings`, else "Proc. of " under `add-proc`, else nothing |
| Records.InProceedingsDetail | crosstex/style/plain.py:309-326 | the inproceedings detail is the venue chained with pages, address, and "month year" or the year alone |
| Records.RenderInProceedings | crosstex/style/plain.py:294-329 | the inproceedings entry is the reference composition |
| Records.MiscDetail | crosstex/style/plain.py:345-352 | the misc detail is how it was published, chained with the emphasised booktitle, address and year |
| Records.RenderMisc | crosstex/style/plain.py:331-355 | the misc entry is the reference composition; author and title are optional |
| Records.RenderTechReport | crosstex/style/plain.py:357-386 | the techreport entry is the reference composition: institution, address, "Technical Report" with its number if any, year |
| Records.RenderUrl | crosstex/style/plain.py:388-409 | the url entry is the reference composition; without an access year the access month and day do not affect it; its closed detail ends the entry, inside one more span in HTML |
| Records.UrlEntryEnds | crosstex/style/plain.py:404-409 | the url's closed detail block ends the entry: directly in bbl and txt, followed by one more closing span in HTML |
| Records.EntryText | crosstex/style/plain.py:140-153 | a record renders exactly when it is of one of the six kinds |
| Records.RenderRecord | crosstex/style/plain.py:140-153 | dispatch to the kind's renderer; any other kind fails, naming its kind |
| Records.HeadBlockPresence | crosstex/style/plain.py:242-245 | an author or title block exists exactly when the text is non-empty and, for bbl and txt, the punctuated text is not all whitespace |
| Records.ComposeOrder | crosstex/style/plain.py:268 | the surviving blocks appear in the order author, title, detail, with the separator between neighbours only |
| Records.DetailEndsEntry | crosstex/style/plain.py:266-268 | a non-empty detail block ends the entry |
| Records.HtmlBlockEnds | crosstex/style/plain.py:71-72 | an HTML block ends with its closing span |
| Records.HtmlComposeEnds | crosstex/style/plain.py:266-268 | an HTML composition whose detail is a block ends with a closing span |
| Records.EntryShape | crosstex/style/plain.py:231-409 | every supported entry is two head blocks and a final block, composed |
| Records.HtmlEntryKeepsDetail | crosstex/style/plain.py:266-268 | every supported HTML entry ends with the closing span of its detail block |
| Records.EmptyMisc | crosstex/style/plain.py:331-355 | a misc record without fields renders as its closed empty detail block alone: in bbl and txt, nothing exactly when the punctuated empty text is whitespace; in HTML, a non-empty span around that text, which is `<span></span>` exactly when that text is whitespace |
| Records.ProceedingsPrefixFlags | crosstex/style/plain.py:309-316 | "In " comes first; `add-proceedings` takes precedence over `add-proc`; no other flag matters |
| Records.InProceedingsMonthNeedsYear | crosstex/style/plain.py:321-326 | without a year the month does not affect the entry |
| Records.TechReportIgnoresMonth | crosstex/style/plain.py:364-386 | the techreport month is read but never printed |
| Records.UrlDateNeedsAllParts | crosstex/style/plain.py:404-406 | without an access year, the access month and day do not affect the entry |
| Records.UrlDetailWrapping | crosstex/style/plain.py:407-408 | the url detail is wrapped twice: a no-op in bbl and txt, nested spans in HTML |
| Records.UrlAccessedAdjoinsLink | crosstex/style/plain.py:404-406 | in bbl and txt, "Accessed " follows the link's trimmed block with no whitespace between them |
| Engine.NewStyle | crosstex/style/plain.py:91-97 | construction succeeds exactly for a registered format; absent flags and options become empty |
| Engine.Callback | crosstex/style/plain.py:149-153 | a renderer is found exactly for the six record kinds, and it is named `render_<kind>` |
| Engine.CallbackAgreesWithRenderers | crosstex/style/plain.py:149-153 | a renderer is found for a record's kind exactly when the record renders, and two records that find the same renderer are of the same kind |
| Engine.Digits | crosstex/style/plain.py:122 | the digit count d satisfies 10^(d-1) <= n < 10^d |
| Engine.DigitsUnique | crosstex/style/plain.py:122 | the digit count is the only such d |
| Engine.Zeros | crosstex/style/plain.py:125 | `'0' * d`: d zeros |
| Engine.Longest | crosstex/style/plain.py:129 | the result is one of the labels and is at least every label in the `(len, label)` order |
| Engine.LongestUnique | crosstex/style/plain.py:129 | that maximum is unique |
| Engine.CiteBy | crosstex/style/plain.py:123 | the `cite-by` option, `style` when absent; its effect is stated by `Engine.PlanLabels` and `Engine.FallbackLabels` |
| Engine.PlanLabels | crosstex/style/plain.py:122-135 | fallback labels for `style`, `number` and unknown values; generated labels for `initials` and `fullname`, sized by the longest, failing when there are none |
| Engine.FormatLabel | crosstex/style/plain.py:136 | `str.format` on one label; its property is stated by `Engine.FormatLabelKeepsPlain` |
| Engine.FormatLabelKeepsPlain | crosstex/style/plain.py:136 | a label with no `{` or `}` comes out unchanged, whatever the formatter and the substitution routine |
| Engine.FormatLabels | crosstex/style/plain.py:136 | one formatted label per label, in order, with the formatter's etal marker |
| Engine.FallbackLabels | crosstex/style/plain.py:122-135 | fallback labels are empty, one per citation, and the placeholder is as many zeros as the count has digits, "0" for no citations |
| Engine.FirstUnsupported | crosstex/style/plain.py:139-143 | the position of the first citation without a renderer, or none when all have one |
| Engine.Render | crosstex/style/plain.py:121-147 | the label map and the document: header, one item per citation paired up to the shorter list, footer; the first unsupported citation fails, naming its kind |
| Engine.Assemble | crosstex/style/plain.py:137-147 | the loop renders each citation in order, records its label, and stops at the first unsupported kind |
| Engine.LabelMapKeys | crosstex/style/plain.py:138-141 | the label map's keys are exactly the cited keys |
| Engine.LabelMapLast | crosstex/style/plain.py:139-141 | a repeated key keeps the label of its last citation |
| Engine.SortNames | crosstex/style/plain.py:105-106 | each author's name, in order, passed through `name_sort_last_first` |
| Engine.SortKeyOf | crosstex/style/plain.py:99-119 | sorting by chosen fields is not implemented; otherwise, for every record including those of unsupported kinds, the authors as sort names when present, the raw title, the booktitle or else the journal, and the year |
| Engine.SortVenueMatchesEntry | crosstex/style/plain.py:111-115 | the sort key's venue is the booktitle or journal text that the entry prints |
| Engine.SortTitleIgnoresCasing | crosstex/style/plain.py:108-110 | the sort key's title does not depend on the title-casing flags |
| Engine.SortKeyIgnoresKind | crosstex/style/plain.py:99-119 | a record of a kind no renderer handles still has a sort key, and it does not depend on the kind's name |

## Left out

- The helpers that `crosstex/style/__init__.py` and `crosstex/latex.py` provide are parameters of the model, because those files are not part of this model. They are `punctuate`, `names_first_last`, `names_shortfirst_last`, `list_comma_and`, `name_sort_last_first`, the title-casing functions, `to_latex`, and the two label generators.
- `str.format` on a label that contains a brace is the `formatLabel` parameter. Only its effect on labels without braces, which is none, is modelled.
- The database object is reduced to the two lists it is asked for: title phrases and title smalls.
- `crosstex/objects.py` is not part of this model. The fields of each record kind are the fields the renderers read, and each field's `allowed` set is assumed to match.
  - Fields that the renderers read without a guard are required by the datatypes. These are the article's author, title and journal; the author and title of book, inproceedings and techreport; and the url's link.
  - The url record has no `year` field, so its sort key has no year.
  - `render_url` tests `if url:` on the record object itself before using its link. The model assumes that test passes, as it does for an object that defines neither `__len__` nor `__nonzero__`, and always uses the link.
  - A record of any other kind carries only the fields the sort key reads: author, title, booktitle, journal and year.
- Engine.Callback: is weaker than `_callback`. The source finds any `render_<kind>` attribute, so a record of kind `str` or `title` would be handed to a field renderer. The model finds renderers for the six record kinds only.
- `render_year` on something other than a parsed value returns None. Years are plain values in the model, so that branch is left out.
- Engine.Digits: computes the exact decimal digit count. The source uses the floating-point `int(math.log10(n)) + 1`, which agrees with it up to the precision of doubles.
- The source's exceptions are modelled as `Failure` values: an unknown format, sorting by chosen fields, an unsupported citation, and `max` of an empty label list. The label map filled before an unsupported citation is discarded with the failure, as the exception discards it.
- Python 2's distinction between `str` and `unicode` is not modelled. All text is `seq<char>`, and stripping uses Python 2's Unicode whitespace set.
- The unused `context` and `history` parameters of the renderers are left out.

=== FILE: base.dfy ===
/** Optional values, the renderer's error kinds, and results that carry either. */
module Base {

  /** A value that may be absent (Python's `None`). */
  datatype Option<+T> = None | Some(value: T)

  /** The ways a render pass can fail. */
  datatype Error =
    /** A record kind with no `render_<kind>` renderer; names the kind. */
    | UnsupportedCitation(kind: string)
    /** `sort_key` was asked to sort by a subset of fields. */
    | NotImplemented
    /** The style was constructed with an output format outside bbl/txt/html. */
    | UnknownFormat(name: string)
    /** `max` over an empty list of generated labels. */
    | EmptyLabels

  datatype Result<+T> = Success(value: T) | Failure(error: Error)
}

=== FILE: engine.dfy ===
/** The citation driver of the plain style: style construction, label planning,
    renderer lookup, document assembly and the sort key. */
module Engine {
  import opened Base
  import opened Text
  import opened Formatters
  import opened Fields
  import opened Records

  /** One citation: the key it is cited under and the record it refers to. */
  datatype Citation = Citation(key: string, record: Record)

  /** The external label generators for `cite-by` initials and fullname. */
  datatype LabelGenerators = LabelGenerators(
    initials: seq<Citation> -> seq<string>,
    fullnames: seq<Citation> -> seq<string>)

  /** A constructed style: its formatter, flags and options. */
  datatype Style = Style(fmt: Format, flags: set<string>, options: map<string, string>)

  // ---------------------------------------------------------------- construction

  /** Style construction: the formatter is looked up by name (an unknown name fails),
      and absent or empty flags and options become empty. */
  function NewStyle(fmtName: string, flags: Option<set<string>>, options: Option<map<string, string>>)
    : (r: Result<Style>)
    ensures r.Success? <==> fmtName in FormatNames
    ensures r.Failure? ==> r.error == UnknownFormat(fmtName)
    ensures r.Success? ==> FormatName(r.value.fmt) == fmtName
    ensures r.Success? ==> r.value.flags == (if flags.Some? then flags.value else {})
    ensures r.Success? ==> r.value.options == (if options.Some? then options.value else map[])
  {
    match FormatByName(fmtName)
    case Failure(e) => Failure(e)
    case Success(f) =>
      Success(Style(f,
        if flags.Some? && flags.value != {} then flags.value else {},
        if options.Some? && options.value != map[] then options.value else map[]))
  }

  /** The context the record renderers of a style read. */
  function Cx(st: Style, ext: Externals): Context {
    Context(ext, st.fmt, st.flags)
  }

  // ---------------------------------------------------------------- renderer lookup

  /** `_callback`: the name of the renderer registered for a kind, if any. */
  function Callback(kind: string): (r: Option<string>)
    ensures r.Some? <==> kind in RecordKinds
    ensures r.Some? ==> r.value == "render_" + kind
  {
    if kind in RecordKinds then Some("render_" + kind) else None
  }

  /** Every renderer is found under its own kind, distinct kinds find distinct
      renderers, and a record's kind has a renderer exactly when the record renders. */
  lemma CallbackAgreesWithRenderers(cx: Context, rec: Record, other: Record)
    ensures Callback(KindOf(rec)).Some? <==> EntryText(cx, rec).Success?
    ensures Callback(KindOf(rec)).Some? && Callback(KindOf(other)) == Callback(KindOf(rec)) ==>
      KindOf(other) == KindOf(rec)
  {
    if Callback(KindOf(rec)).Some? && Callback(KindOf(other)) == Callback(KindOf(rec)) {
      var p := "render_";
      assert (p + KindOf(other))[|p|..] == KindOf(other);
      assert (p + KindOf(rec))[|p|..] == KindOf(rec);
    }
  }

  // ---------------------------------------------------------------- labels

  function Pow10(d: nat): nat {
    if d == 0 then 1 else 10 * Pow10(d - 1)
  }

  /** `int(math.log10(n)) + 1` for n > 0, and 1 for n == 0: the number of decimal
      digits of n. */
  function Digits(n: nat): (d: nat)
    ensures d >= 1
    ensures n < Pow10(d)
    ensures n > 0 ==> Pow10(d - 1) <= n
  {
    if n < 10 then 1
    else
      var d := 1 + Digits(n / 10);
      assert Pow10(d) == 10 * Pow10(d - 1);
      d
  }

  lemma {:induction false} Pow10Monotonic(i: nat, j: nat)
    requires i <= j
    ensures Pow10(i) <= Pow10(j)
    decreases j
  {
    if i < j {
      Pow10Monotonic(i, j - 1);
    }
  }

  /** The digit count is the only d with 10^(d-1) <= n < 10^d. */
  lemma DigitsUnique(n: nat, d: nat)
    requires n > 0 && d >= 1 && Pow10(d - 1) <= n < Pow10(d)
    ensures Digits(n) == d
  {
    var e := Digits(n);
    if e < d {
      Pow10Monotonic(e, d - 1);
    } else if e > d {
      Pow10Monotonic(d, e - 1);
    }
  }

  /** `'0' * d`. */
  function Zeros(d: nat): (r: string)
    ensures |r| == d
    ensures forall k :: 0 <= k < d ==> r[k] == '0'
  {
    seq(d, _ => '0')
  }

  /** `max((len(l), l) for l in labels)[1]`: the longest label, equal lengths
      decided by string order. */
  function Longest(labels: seq<string>): (r: string)
    requires |labels| > 0
    ensures r in labels
    ensures forall k :: 0 <= k < |labels| ==> labels[k] == r || LengthThenLexLess(labels[k], r)
  {
    if |labels| == 1 then labels[0]
    else
      var rest := Longest(labels[1..]);
      LengthThenLexLessTotal(labels[0], rest);
      if labels[0] == rest || LengthThenLexLess(labels[0], rest) then rest
      else
        assert forall k :: 1 <= k < |labels| ==> labels[k] == labels[1..][k - 1];
        forall k | 1 <= k < |labels| && labels[k] != rest
          ensures LengthThenLexLess(labels[k], labels[0])
        {
          LengthThenLexLessTransitive(labels[k], rest, labels[0]);
        }
        labels[0]
  }

  /** Only one label is at least as large as every other. */
  lemma LongestUnique(labels: seq<string>, m: string)
    requires m in labels
    requires forall k :: 0 <= k < |labels| ==> labels[k] == m || LengthThenLexLess(labels[k], m)
    ensures Longest(labels) == m
  {
    var l := Longest(labels);
    LengthThenLexLessTotal(l, m);
  }

  /** The `cite-by` option, `style` when absent. */
  function CiteBy(options: map<string, string>): string {
    if "cite-by" in options then options["cite-by"] else "style"
  }

  /** The list-width placeholder and the raw labels, one per citation. */
  datatype LabelPlan = LabelPlan(longest: string, labels: seq<string>)

  /** The fallback plan: `'0'` times the digit count, and an empty label per citation. */
  function FallbackPlan(n: nat): LabelPlan {
    LabelPlan(Zeros(Digits(n)), seq(n, _ => ""))
  }

  /** Label planning: generated labels for `initials` and `fullname`, whose
      placeholder is the longest label (no labels at all fail, as `max` of nothing
      does); the fallback plan for `style`, `number` and any other value. */
  function PlanLabels(st: Style, gen: LabelGenerators, citations: seq<Citation>): (r: Result<LabelPlan>)
    ensures CiteBy(st.options) !in {"initials", "fullname"} ==> r == Success(FallbackPlan(|citations|))
    ensures CiteBy(st.options) == "initials" ==>
      (r.Failure? <==> gen.initials(citations) == []) &&
      (r.Success? ==> r.value.labels == gen.initials(citations))
    ensures CiteBy(st.options) == "fullname" ==>
      (r.Failure? <==> gen.fullnames(citations) == []) &&
      (r.Success? ==> r.value.labels == gen.fullnames(citations))
    ensures r.Failure? ==> r.error == EmptyLabels
    ensures r.Success? && CiteBy(st.options) in {"initials", "fullname"} ==>
      r.value.longest in r.value.labels &&
      forall k :: 0 <= k < |r.value.labels| ==> |r.value.labels[k]| <= |r.value.longest|
  {
    var citeBy := CiteBy(st.options);
    if citeBy == "style" || citeBy == "number" then Success(FallbackPlan(|citations|))
    else if citeBy == "initials" || citeBy == "fullname" then
      var labels := if citeBy == "initials" then gen.initials(citations) else gen.fullnames(citations);
      if |labels| == 0 then Failure(EmptyLabels)
      else Success(LabelPlan(Longest(labels), labels))
    else Success(FallbackPlan(|citations|))
  }

  /** `label.format(etalchar=...)`: a label without braces is left as is; the
      substitution itself is the external `formatLabel`. */
  function FormatLabel(ext: Externals, lbl: string, etal: string): string {
    if '{' !in lbl && '}' !in lbl then lbl else ext.formatLabel(lbl, etal)
  }

  /** A label with no `{` or `}` comes out unchanged, whatever the formatter
      and whatever the substitution routine. */
  lemma FormatLabelKeepsPlain(ext: Externals, lbl: string)
    requires '{' !in lbl && '}' !in lbl
    ensures forall f :: FormatLabel(ext, lbl, EtalChar(f)) == lbl
  {
  }

  function FormatLabels(ext: Externals, fmt: Format, labels: seq<string>): (r: seq<string>)
    ensures |r| == |labels|
    ensures forall k :: 0 <= k < |labels| ==> r[k] == FormatLabel(ext, labels[k], EtalChar(fmt))
  {
    if |labels| == 0 then []
    else [FormatLabel(ext, labels[0], EtalChar(fmt))] + FormatLabels(ext, fmt, labels[1..])
  }

  /** With `cite-by` other than initials and fullname, every label is empty, there is
      one per citation, and the placeholder is as many zeros as the citation count
      has digits. */
  lemma FallbackLabels(st: Style, ext: Externals, gen: LabelGenerators, citations: seq<Citation>)
    requires CiteBy(st.options) !in {"initials", "fullname"}
    ensures PlanLabels(st, gen, citations).Success?
    ensures var plan := PlanLabels(st, gen, citations).value;
      var labels := FormatLabels(ext, st.fmt, plan.labels);
      |labels| == |citations| &&
      (forall k :: 0 <= k < |labels| ==> labels[k] == "") &&
      plan.longest == Zeros(Digits(|citations|)) &&
      (citations == [] ==> plan.longest == "0")
  {
    var plan := PlanLabels(st, gen, citations).value;
    assert forall k :: 0 <= k < |plan.labels| ==> plan.labels[k] == "";
    if citations == [] {
      assert Digits(0) == 1;
    }
  }

  // ---------------------------------------------------------------- documents

  predicate Supported(c: Citation) {
    !c.record.OtherRecord?
  }

  /** The position of the first citation whose kind has no renderer. */
  function FirstUnsupported(cs: seq<Citation>): (r: Option<nat>)
    ensures r.None? <==> forall k :: 0 <= k < |cs| ==> Supported(cs[k])
    ensures r.Some? ==>
      r.value < |cs| && !Supported(cs[r.value]) &&
      forall k :: 0 <= k < r.value ==> Supported(cs[k])
  {
    if |cs| == 0 then None
    else if !Supported(cs[0]) then Some(0)
    else
      var rest := FirstUnsupported(cs[1..]);
      assert forall k :: 1 <= k < |cs| ==> cs[k] == cs[1..][k - 1];
      if rest.None? then None else Some(rest.value + 1)
  }

  /** The rendered entries of supported citations, in input order. */
  function Entries(cx: Context, cs: seq<Citation>): (es: seq<string>)
    requires forall k :: 0 <= k < |cs| ==> Supported(cs[k])
    ensures |es| == |cs|
    ensures forall k :: 0 <= k < |cs| ==> Success(es[k]) == EntryText(cx, cs[k].record)
  {
    seq(|cs|, k requires 0 <= k < |cs| && Supported(cs[k]) => EntryText(cx, cs[k].record).value)
  }

  /** The items of the document, one per citation, in input order. */
  function ItemList(fmt: Format, toLatex: string -> string, cs: seq<Citation>, ls: seq<string>, es: seq<string>)
    : (r: seq<string>)
    requires |cs| == |ls| == |es|
    ensures |r| == |cs|
    ensures forall k :: 0 <= k < |cs| ==> r[k] == Item(fmt, toLatex, cs[k].key, ls[k], es[k])
  {
    seq(|cs|, k requires 0 <= k < |cs| => Item(fmt, toLatex, cs[k].key, ls[k], es[k]))
  }

  /** The label map, filled in input order, so a repeated key keeps its last label. */
  function LabelMap(cs: seq<Citation>, ls: seq<string>): map<string, string>
    requires |cs| == |ls|
  {
    if |cs| == 0 then map[]
    else
      var n := |cs| - 1;
      LabelMap(cs[..n], ls[..n])[cs[n].key := ls[n]]
  }

  function Min(a: nat, b: nat): nat {
    if a < b then a else b
  }

  /** `render`: plan the labels, format them, and emit the header, one item per
      citation and the footer; the label map sends each key to its label. Citations
      and labels are paired as `zip` pairs them, up to the shorter list. The first
      citation without a renderer aborts the render, naming its kind. */
  method Render(st: Style, ext: Externals, gen: LabelGenerators, citations: seq<Citation>)
    returns (r: Result<(map<string, string>, string)>)
    ensures PlanLabels(st, gen, citations).Failure? ==> r == Failure(EmptyLabels)
    ensures PlanLabels(st, gen, citations).Success? ==>
      var plan := PlanLabels(st, gen, citations).value;
      var labels := FormatLabels(ext, st.fmt, plan.labels);
      var n := Min(|citations|, |labels|);
      var cs := citations[..n];
      var ls := labels[..n];
      var first := FirstUnsupported(cs);
      (first.Some? ==> r == Failure(UnsupportedCitation(KindOf(cs[first.value].record)))) &&
      (first.None? ==>
         r == Success((LabelMap(cs, ls),
                       Header(st.fmt, plan.longest)
                       + Concat(ItemList(st.fmt, ext.toLatex, cs, ls, Entries(Cx(st, ext), cs)))
                       + Footer(st.fmt))))
  {
    var plan := PlanLabels(st, gen, citations);
    if plan.Failure? {
      return Failure(plan.error);
    }
    var labels := FormatLabels(ext, st.fmt, plan.value.labels);
    var n := Min(|citations|, |labels|);
    r := Assemble(Cx(st, ext), plan.value.longest, citations[..n], labels[..n]);
  }

  /** The loop of `render` over the paired citations and labels. */
  method Assemble(cx: Context, longest: string, citations: seq<Citation>, labels: seq<string>)
    returns (r: Result<(map<string, string>, string)>)
    requires |citations| == |labels|
    ensures var first := FirstUnsupported(citations);
      (first.Some? ==> r == Failure(UnsupportedCitation(KindOf(citations[first.value].record)))) &&
      (first.None? ==>
         r == Success((LabelMap(citations, labels),
                       Header(cx.fmt, longest)
                       + Concat(ItemList(cx.fmt, cx.ext.toLatex, citations, labels, Entries(cx, citations)))
                       + Footer(cx.fmt))))
  {
    var bib := Header(cx.fmt, longest);
    var dict: map<string, string> := map[];
    ghost var es: seq<string> := [];
    for i := 0 to |citations|
      invariant |es| == i
      invariant forall k :: 0 <= k < i ==> Supported(citations[k])
      invariant forall k :: 0 <= k < i ==> Success(es[k]) == EntryText(cx, citations[k].record)
      invariant dict == LabelMap(citations[..i], labels[..i])
      invariant bib == Header(cx.fmt, longest) + Concat(ItemList(cx.fmt, cx.ext.toLatex, citations[..i], labels[..i], es))
    {
      var c := citations[i];
      var lbl := labels[i];
      var cb := Callback(KindOf(c.record));
      CallbackSupported(c);
      LabelMapSnoc(citations, labels, i);
      dict := dict[c.key := lbl];
      if cb.None? {
        FirstUnsupportedAt(citations, i);
        return Failure(UnsupportedCitation(KindOf(c.record)));
      }
      assert Supported(c);
      var item := RenderRecord(cx, c.record);
      assert Success(item.value) == EntryText(cx, citations[i].record);
      ItemsSnoc(cx.fmt, cx.ext.toLatex, Header(cx.fmt, longest), citations, labels, es, i, item.value);
      bib := bib + Item(cx.fmt, cx.ext.toLatex, c.key, lbl, item.value);
      SupportedSnoc(citations, i);
      EntriesSnoc(cx, citations, es, i, item.value);
      es := es + [item.value];
    }
    assert citations[..|citations|] == citations && labels[..|labels|] == labels;
    EntriesUnique(cx, citations, es);
    bib := bib + Footer(cx.fmt);
    r := Success((dict, bib));
  }

  lemma CallbackSupported(c: Citation)
    ensures Callback(KindOf(c.record)).Some? <==> Supported(c)
  {
  }

  lemma FirstUnsupportedAt(cs: seq<Citation>, i: nat)
    requires i < |cs| && !Supported(cs[i])
    requires forall k :: 0 <= k < i ==> Supported(cs[k])
    ensures FirstUnsupported(cs) == Some(i)
  {
  }

  /** The entries are determined by the citations. */
  lemma EntriesUnique(cx: Context, cs: seq<Citation>, es: seq<string>)
    requires forall k :: 0 <= k < |cs| ==> Supported(cs[k])
    requires |es| == |cs|
    requires forall k :: 0 <= k < |cs| ==> Success(es[k]) == EntryText(cx, cs[k].record)
    ensures es == Entries(cx, cs)
  {
  }

  lemma SupportedSnoc(cs: seq<Citation>, i: nat)
    requires i < |cs|
    requires forall k :: 0 <= k < i ==> Supported(cs[k])
    requires Supported(cs[i])
    ensures forall k :: 0 <= k < i + 1 ==> Supported(cs[k])
  {
  }

  lemma EntriesSnoc(cx: Context, cs: seq<Citation>, es: seq<string>, i: nat, e: string)
    requires i < |cs| && |es| == i
    requires forall k :: 0 <= k < i ==> Success(es[k]) == EntryText(cx, cs[k].record)
    requires Success(e) == EntryText(cx, cs[i].record)
    ensures forall k :: 0 <= k < i + 1 ==> Success((es + [e])[k]) == EntryText(cx, cs[k].record)
  {
  }

  lemma ItemsSnoc(fmt: Format, toLatex: string -> string, h: string,
                  cs: seq<Citation>, ls: seq<string>, es: seq<string>, i: nat, e: string)
    requires |cs| == |ls| && i < |cs| && |es| == i
    ensures h + Concat(ItemList(fmt, toLatex, cs[..i + 1], ls[..i + 1], es + [e]))
            == h + Concat(ItemList(fmt, toLatex, cs[..i], ls[..i], es)) + Item(fmt, toLatex, cs[i].key, ls[i], e)
  {
    var it := Item(fmt, toLatex, cs[i].key, ls[i], e);
    var before := ItemList(fmt, toLatex, cs[..i], ls[..i], es);
    assert ItemList(fmt, toLatex, cs[..i + 1], ls[..i + 1], es + [e]) == before + [it];
    ConcatSnoc(before, it);
    GroupLastTwo(h, Concat(before), it);
  }

  lemma LabelMapSnoc(cs: seq<Citation>, ls: seq<string>, i: nat)
    requires |cs| == |ls| && i < |cs|
    ensures LabelMap(cs[..i + 1], ls[..i + 1]) == LabelMap(cs[..i], ls[..i])[cs[i].key := ls[i]]
  {
    assert cs[..i + 1][..i] == cs[..i] && ls[..i + 1][..i] == ls[..i];
  }

  /** Exactly the cited keys are in the label map. */
  lemma {:induction false} LabelMapKeys(cs: seq<Citation>, ls: seq<string>)
    requires |cs| == |ls|
    ensures forall key :: key in LabelMap(cs, ls) <==> exists k :: 0 <= k < |cs| && cs[k].key == key
    decreases |cs|
  {
    if |cs| > 0 {
      var n := |cs| - 1;
      LabelMapKeys(cs[..n], ls[..n]);
      forall key
        ensures key in LabelMap(cs, ls) <==> exists k :: 0 <= k < |cs| && cs[k].key == key
      {
        if key != cs[n].key && exists k :: 0 <= k < |cs| && cs[k].key == key {
          var k :| 0 <= k < |cs| && cs[k].key == key;
          assert cs[..n][k].key == key;
        }
        if key != cs[n].key && exists k :: 0 <= k < n && cs[..n][k].key == key {
          var k :| 0 <= k < n && cs[..n][k].key == key;
          assert cs[k].key == key;
        }
      }
    }
  }

  /** A key maps to the label of its last citation. */
  lemma {:induction false} LabelMapLast(cs: seq<Citation>, ls: seq<string>, k: nat)
    requires |cs| == |ls| && k < |cs|
    requires forall j :: k < j < |cs| ==> cs[j].key != cs[k].key
    ensures cs[k].key in LabelMap(cs, ls) && LabelMap(cs, ls)[cs[k].key] == ls[k]
    decreases |cs|
  {
    var n := |cs| - 1;
    if k < n {
      assert forall j :: k < j < n ==> cs[..n][j] == cs[j];
      LabelMapLast(cs[..n], ls[..n], k);
      assert cs[..n][k] == cs[k] && ls[..n][k] == ls[k];
    }
  }

  // ---------------------------------------------------------------- sort key

  /** The 4-tuple `(author, title, where, when)` records are sorted by; each part
      is absent when the record lacks the field. */
  datatype SortKey = SortKey(
    author: Option<seq<string>>, title: Option<string>, venue: Option<string>, year: Option<string>)

  function RecordAuthors(rec: Record): seq<Author> {
    match rec
    case ArticleRecord(a) => a.author
    case BookRecord(b) => b.author
    case InProceedingsRecord(p) => p.author
    case MiscRecord(m) => m.author
    case TechReportRecord(t) => t.author
    case UrlRecord(u) => u.author
    case OtherRecord(_, author, _, _, _, _) => author
  }

  function RecordTitle(rec: Record): Option<string> {
    match rec
    case ArticleRecord(a) => Some(a.title)
    case BookRecord(b) => Some(b.title)
    case InProceedingsRecord(p) => Some(p.title)
    case MiscRecord(m) => m.title
    case TechReportRecord(t) => Some(t.title)
    case UrlRecord(u) => u.title
    case OtherRecord(_, _, title, _, _, _) => title
  }

  function RecordBooktitle(rec: Record): Option<Booktitle> {
    match rec
    case InProceedingsRecord(p) => p.booktitle
    case MiscRecord(m) => m.booktitle
    case OtherRecord(_, _, _, booktitle, _, _) => booktitle
    case _ => None
  }

  function RecordJournal(rec: Record): Option<Named> {
    match rec
    case ArticleRecord(a) => Some(a.journal)
    case OtherRecord(_, _, _, _, journal, _) => journal
    case _ => None
  }

  function RecordYear(rec: Record): Option<string> {
    match rec
    case ArticleRecord(a) => a.year
    case BookRecord(b) => b.year
    case InProceedingsRecord(p) => p.year
    case MiscRecord(m) => m.year
    case TechReportRecord(t) => t.year
    case UrlRecord(_) => None
    case OtherRecord(_, _, _, _, _, year) => year
  }

  function SortNames(ext: Externals, authors: seq<Author>): (r: seq<string>)
    ensures |r| == |authors|
    ensures forall k :: 0 <= k < |authors| ==> r[k] == ext.nameSortLastFirst(AuthorName(authors[k]))
  {
    if |authors| == 0 then []
    else [ext.nameSortLastFirst(AuthorName(authors[0]))] + SortNames(ext, authors[1..])
  }

  /** `sort_key`: sorting by chosen fields is not implemented; otherwise the authors
      as sortable names, the raw title, the booktitle (else the journal) and the year. */
  function SortKeyOf(st: Style, ext: Externals, c: Citation, fields: Option<seq<string>>): (r: Result<SortKey>)
    ensures r.Failure? <==> fields.Some?
    ensures r.Failure? ==> r.error == NotImplemented
    ensures r.Success? ==>
      var authors := RecordAuthors(c.record);
      (r.value.author.Some? <==> |authors| > 0) &&
      (r.value.author.Some? ==>
         |r.value.author.value| == |authors| &&
         forall k :: 0 <= k < |authors| ==>
           r.value.author.value[k] == ext.nameSortLastFirst(AuthorName(authors[k])))
    ensures r.Success? ==> r.value.title == RecordTitle(c.record) && r.value.year == RecordYear(c.record)
    ensures r.Success? && RecordBooktitle(c.record).Some? ==>
      r.value.venue == Some(RenderBooktitle(st.flags, RecordBooktitle(c.record).value))
    ensures r.Success? && RecordBooktitle(c.record).None? ==>
      r.value.venue == (if RecordJournal(c.record).Some?
                        then Some(RenderJournal(st.flags, RecordJournal(c.record).value)) else None)
  {
    if fields.Some? then Failure(NotImplemented)
    else
      var rec := c.record;
      var authors := RecordAuthors(rec);
      var author := if |authors| > 0 then Some(SortNames(ext, authors)) else None;
      var booktitle := RecordBooktitle(rec);
      var journal := RecordJournal(rec);
      var venue :=
        if booktitle.Some? then Some(RenderBooktitle(st.flags, booktitle.value))
        else if journal.Some? then Some(RenderJournal(st.flags, journal.value))
        else None;
      Success(SortKey(author, RecordTitle(rec), venue, RecordYear(rec)))
  }

  /** The sort key's venue is the venue text the renderer prints: the booktitle of
      an inproceedings, the journal of an article. */
  lemma SortVenueMatchesEntry(st: Style, ext: Externals, c: Citation)
    ensures c.record.InProceedingsRecord? ==>
      SortKeyOf(st, ext, c, None).value.venue == InProceedingsBooktitle(Cx(st, ext), c.record.inproceedings)
    ensures c.record.ArticleRecord? ==>
      SortKeyOf(st, ext, c, None).value.venue == Some(RenderJournal(st.flags, c.record.article.journal))
  {
  }

  /** The sort key ignores the title-casing flags: it sorts by the title as written. */
  lemma SortTitleIgnoresCasing(st: Style, ext: Externals, c: Citation, flags: set<string>)
    ensures SortKeyOf(st, ext, c, None).value.title == SortKeyOf(st.(flags := flags), ext, c, None).value.title
  {
  }

  /** The sort key reads fields only, so a record of a kind no renderer handles still
      sorts, and by the same key whatever its kind is called. */
  lemma SortKeyIgnoresKind(st: Style, ext: Externals, key: string, rec: Record, kind: OtherKind)
    requires rec.OtherRecord?
    ensures SortKeyOf(st, ext, Citation(key, rec), None).Success?
    ensures SortKeyOf(st, ext, Citation(key, rec), None)
         == SortKeyOf(st, ext, Citation(key, rec.(kind := kind)), None)
  {
  }
}

=== FILE: fields.dfy ===
/** Field values of a bibliography record and the small renderers that turn one
    field into text under the active presentation flags. */
module Fields {
  import opened Base
  import opened Text

  /** Helpers the plain style calls whose bodies are outside this model; every
      property below is stated relative to them. */
  datatype Externals = Externals(
    /** `punctuate(string, punctuation, space)`. */
    punctuate: (string, string, string) -> string,
    namesFirstLast: seq<string> -> seq<string>,
    namesShortFirstLast: seq<string> -> seq<string>,
    listCommaAnd: seq<string> -> string,
    nameSortLastFirst: string -> string,
    titleUppercase: string -> string,
    /** Title-casing that keeps the database's protected phrases. */
    titleTitlecase: (string, seq<string>) -> string,
    /** Lower-casing that keeps the database's capitalised words. */
    titleLowercase: (string, seq<string>) -> string,
    /** LaTeX escaping applied by the bbl item. */
    toLatex: string -> string,
    /** `label.format(etalchar=marker)` for labels that contain a brace. */
    formatLabel: (string, string) -> string,
    /** The database's `titlephrases()` and `titlesmalls()` lookups. */
    titlePhrases: seq<string>,
    titleSmalls: seq<string>)

  /** A string field: a plain parsed value, or an object with short and long names
      (a journal, conference, workshop, city, state, country, month, publisher). */
  datatype Named = Value(value: string) | Entity(shortname: string, longname: string)

  /** An author entry: either an author object holding a name, or a plain value. */
  datatype Author = NamedAuthor(name: string) | ValueAuthor(value: string)

  /** The shapes an address field can take. */
  datatype Address =
    | Location(city: Option<Named>, state: Option<Named>, country: Option<Named>)
    | Country(shortname: string, longname: string)
    | State(shortname: string, longname: string, country: Option<Named>)
    | AddressValue(value: string)

  /** The shapes a booktitle field can take. */
  datatype Booktitle =
    | Workshop(shortname: string, longname: string)
    | Conference(shortname: string, longname: string)
    | BooktitleValue(value: string)

  /** `render_str`: a plain value as is, otherwise the short name when the flag
      `short-<which>` is set and the long name when it is not. */
  function RenderStr(flags: set<string>, s: Named, which: string): string {
    match s
    case Value(v) => v
    case Entity(short, long) => if "short-" + which in flags then short else long
  }

  /** A plain value ignores the flags; an object's short name is chosen exactly
      when `short-<which>` is set (whenever the two names differ). */
  lemma RenderStrChoice(flags: set<string>, s: Named, which: string)
    ensures s.Value? ==> forall g: set<string> :: RenderStr(g, s, which) == s.value
    ensures s.Entity? && s.shortname != s.longname ==>
      (RenderStr(flags, s, which) == s.shortname <==> "short-" + which in flags)
    ensures s.Entity? ==> RenderStr(flags, s, which) in {s.shortname, s.longname}
  {
  }

  function AuthorName(a: Author): string {
    match a
    case NamedAuthor(n) => n
    case ValueAuthor(v) => v
  }

  function AuthorNames(authors: seq<Author>): (r: seq<string>)
    ensures |r| == |authors|
    ensures forall i :: 0 <= i < |authors| ==> r[i] == AuthorName(authors[i])
  {
    seq(|authors|, i requires 0 <= i < |authors| => AuthorName(authors[i]))
  }

  /** `render_author`: the authors' names in order (a parsed name or a verbatim value,
      as the comprehension on line 167 of `crosstex/style/plain.py` takes them), each
      reordered by the short or full name helper, then joined by `list_comma_and`. */
  function RenderAuthor(ext: Externals, flags: set<string>, authors: seq<Author>): (r: string)
    ensures "short-author" in flags ==> r == ext.listCommaAnd(ext.namesShortFirstLast(AuthorNames(authors)))
    ensures "short-author" !in flags ==> r == ext.listCommaAnd(ext.namesFirstLast(AuthorNames(authors)))
  {
    var names := AuthorNames(authors);
    if "short-author" in flags then ext.listCommaAnd(ext.namesShortFirstLast(names))
    else ext.listCommaAnd(ext.namesFirstLast(names))
  }

  /** Only the names matter: two author lists with the same names (whether parsed or
      given verbatim) render alike whenever short-author is set in both or in neither. */
  lemma RenderAuthorByNames(ext: Externals, flags: set<string>, flags': set<string>,
                            authors: seq<Author>, authors': seq<Author>)
    requires AuthorNames(authors) == AuthorNames(authors')
    requires "short-author" in flags <==> "short-author" in flags'
    ensures RenderAuthor(ext, flags, authors) == RenderAuthor(ext, flags', authors')
  {
  }

  /** `render_title`: the first of the flags titlecase-default, -upper, -title,
      -lower that is set picks the casing; with none set the title is verbatim. */
  function RenderTitle(ext: Externals, flags: set<string>, title: string): string {
    if "titlecase-default" in flags then title
    else if "titlecase-upper" in flags then ext.titleUppercase(title)
    else if "titlecase-title" in flags then ext.titleTitlecase(title, ext.titlePhrases)
    else if "titlecase-lower" in flags then ext.titleLowercase(title, ext.titleSmalls)
    else title
  }

  const TitleFlags: seq<string> := ["titlecase-default", "titlecase-upper", "titlecase-title", "titlecase-lower"]

  /** The casing chosen is the one of the earliest title flag present in the
      precedence order; later flags are ignored. */
  lemma TitlePrecedence(ext: Externals, flags: set<string>, title: string, k: nat)
    requires k < |TitleFlags| && TitleFlags[k] in flags
    requires forall j :: 0 <= j < k ==> TitleFlags[j] !in flags
    ensures RenderTitle(ext, flags, title) ==
      [title, ext.titleUppercase(title), ext.titleTitlecase(title, ext.titlePhrases),
       ext.titleLowercase(title, ext.titleSmalls)][k]
  {
    assert k >= 1 ==> TitleFlags[0] !in flags;
    assert k >= 2 ==> TitleFlags[1] !in flags;
    assert k >= 3 ==> TitleFlags[2] !in flags;
  }

  /** Without any title flag the title is used verbatim. */
  lemma TitleVerbatimByDefault(ext: Externals, flags: set<string>, title: string)
    requires forall j :: 0 <= j < |TitleFlags| ==> TitleFlags[j] !in flags
    ensures RenderTitle(ext, flags, title) == title
  {
    assert TitleFlags[0] !in flags && TitleFlags[1] !in flags;
    assert TitleFlags[2] !in flags && TitleFlags[3] !in flags;
  }

  /** `render_booktitle`: a workshop or conference picks short or long name under
      its own flag; a plain value is used as is. */
  function RenderBooktitle(flags: set<string>, b: Booktitle): (r: string)
    ensures b.Workshop? ==> r == (if "short-workshop" in flags then b.shortname else b.longname)
    ensures b.Conference? ==> r == (if "short-conference" in flags then b.shortname else b.longname)
    ensures b.BooktitleValue? ==> r == b.value
  {
    match b
    case Workshop(s, l) =>
      assert "short-" + "workshop" == "short-workshop";
      RenderStr(flags, Entity(s, l), "workshop")
    case Conference(s, l) =>
      assert "short-" + "conference" == "short-conference";
      RenderStr(flags, Entity(s, l), "conference")
    case BooktitleValue(v) => RenderStr(flags, Value(v), "booktitle")
  }

  /** `render_journal`: short or long journal name under `short-journal`. */
  function RenderJournal(flags: set<string>, j: Named): (r: string)
    ensures j.Entity? ==> r == (if "short-journal" in flags then j.shortname else j.longname)
    ensures j.Value? ==> r == j.value
  {
    assert "short-" + "journal" == "short-journal";
    RenderStr(flags, j, "journal")
  }

  /** `render_month`. */
  function RenderMonth(flags: set<string>, m: Named): (r: string)
    ensures m.Entity? ==> r == (if "short-month" in flags then m.shortname else m.longname)
    ensures m.Value? ==> r == m.value
  {
    assert "short-" + "month" == "short-month";
    RenderStr(flags, m, "month")
  }

  /** `render_pages`: "pages p" for a range (a value holding '-'), "page p" otherwise. */
  function RenderPages(p: string): string {
    if '-' in p then "pages " + p else "page " + p
  }

  /** Reads a page phrase back: the text after "pages " or "page ". */
  function PagesOfPhrase(phrase: string): Option<string> {
    if |phrase| >= 6 && phrase[..6] == "pages " && '-' in phrase[6..] then Some(phrase[6..])
    else if |phrase| >= 5 && phrase[..5] == "page " then Some(phrase[5..])
    else None
  }

  /** The page phrase uses the plural exactly for ranges and always ends with the
      page value, which can be read back from it: distinct values give distinct phrases. */
  lemma PagesPhraseRoundTrip(p: string)
    ensures var r := RenderPages(p);
      && (|r| >= 6 && r[..6] == "pages " <==> '-' in p)
      && r[|r| - |p|..] == p
      && PagesOfPhrase(r) == Some(p)
  {
    var r := RenderPages(p);
    if '-' in p {
      assert r[..6] == "pages ";
      assert r[6..] == p;
    } else {
      assert r[..5] == "page ";
      assert r[5..] == p;
      assert |r| >= 6 ==> r[4] == ' ' && "pages "[4] == 's';
    }
  }

  /** `render_address`, structured like the source: collect city, state and country
      as present, then join with ", "; a plain value is returned as is. */
  function RenderAddress(flags: set<string>, a: Address): (r: string)
    ensures a.Country? ==> r == (if "short-country" in flags then a.shortname else a.longname)
    ensures a.State? && a.country.None? ==> r == (if "short-state" in flags then a.shortname else a.longname)
    ensures a.State? && a.country.Some? ==>
      r == (if "short-state" in flags then a.shortname else a.longname) + ", "
           + RenderStr(flags, a.country.value, "country")
    ensures a.AddressValue? ==> r == a.value
  {
    match a
    case AddressValue(v) => RenderStr(flags, Value(v), "address")
    case _ =>
      var (city, state, country) :=
        match a
        case Location(c, s, k) =>
          (RenderPart(flags, c, "city"), RenderPart(flags, s, "state"), RenderPart(flags, k, "country"))
        case Country(s, l) =>
          (None, None, Some(RenderStr(flags, Entity(s, l), "country")))
        case State(s, l, k) =>
          (None, Some(RenderStr(flags, Entity(s, l), "state")), RenderPart(flags, k, "country"));
      assert "short-" + "country" == "short-country";
      assert "short-" + "state" == "short-state";
      JoinPresent(city, state, country);
      Join(", ", Present([city, state, country]))
  }

  function RenderPart(flags: set<string>, part: Option<Named>, which: string): Option<string> {
    if part.Some? then Some(RenderStr(flags, part.value, which)) else None
  }

  /** `[x for x in parts if x is not None]`. */
  function Present(parts: seq<Option<string>>): (r: seq<string>)
    ensures |r| <= |parts|
  {
    if |parts| == 0 then []
    else if parts[0].Some? then [parts[0].value] + Present(parts[1..])
    else Present(parts[1..])
  }

  /** The ", "-join of three optional parts, case by case. */
  lemma JoinPresent(x: Option<string>, y: Option<string>, z: Option<string>)
    ensures var r := Join(", ", Present([x, y, z]));
      && (x.None? && y.None? && z.None? ==> r == "")
      && (x.Some? && y.Some? && z.Some? ==> r == x.value + ", " + y.value + ", " + z.value)
      && (x.Some? && y.None? && z.Some? ==> r == x.value + ", " + z.value)
      && (x.Some? && y.Some? && z.None? ==> r == x.value + ", " + y.value)
      && (x.None? && y.Some? && z.Some? ==> r == y.value + ", " + z.value)
      && (x.Some? && y.None? && z.None? ==> r == x.value)
      && (x.None? && y.Some? && z.None? ==> r == y.value)
      && (x.None? && y.None? && z.Some? ==> r == z.value)
  {
    assert [x, y, z][1..] == [y, z];
    assert [y, z][1..] == [z];
    assert [z][1..] == [];
    var pz: seq<string> := if z.Some? then [z.value] else [];
    assert Present([z]) == pz;
    var pyz: seq<string> := if y.Some? then [y.value] + pz else pz;
    assert Present([y, z]) == pyz;
    var p := if x.Some? then [x.value] + pyz else pyz;
    assert Present([x, y, z]) == p;
    if x.Some? && y.Some? && z.Some? {
      assert p == [x.value, y.value, z.value];
      JoinSmall(", ", x.value, y.value, z.value);
    } else if x.Some? && y.Some? {
      assert p == [x.value, y.value];
      JoinSmall(", ", x.value, y.value, "");
    } else if x.Some? && z.Some? {
      assert p == [x.value, z.value];
      JoinSmall(", ", x.value, z.value, "");
    } else if y.Some? && z.Some? {
      assert p == [y.value, z.value];
      JoinSmall(", ", y.value, z.value, "");
    }
  }

  /** A location lists whichever of city, state and country are present, in that
      order, separated by ", " (an empty rendered part still takes its place). */
  lemma LocationJoin(flags: set<string>, c: Option<Named>, s: Option<Named>, k: Option<Named>)
    ensures var r := RenderAddress(flags, Location(c, s, k));
      var city := RenderPart(flags, c, "city");
      var state := RenderPart(flags, s, "state");
      var country := RenderPart(flags, k, "country");
      && (c.None? && s.None? && k.None? ==> r == "")
      && (c.Some? && s.Some? && k.Some? ==> r == city.value + ", " + state.value + ", " + country.value)
      && (c.Some? && s.None? && k.Some? ==> r == city.value + ", " + country.value)
      && (c.Some? && s.Some? && k.None? ==> r == city.value + ", " + state.value)
      && (c.None? && s.Some? && k.Some? ==> r == state.value + ", " + country.value)
      && (c.Some? && s.None? && k.None? ==> r == city.value)
      && (c.None? && s.Some? && k.None? ==> r == state.value)
      && (c.None? && s.None? && k.Some? ==> r == country.value)
  {
    JoinPresent(RenderPart(flags, c, "city"), RenderPart(flags, s, "state"), RenderPart(flags, k, "country"));
  }
}

=== FILE: formatters.dfy ===
/** The three output formatters of the plain style: LaTeX bibliography (bbl),
    plain text (txt) and HTML. Each is a pure string-wrapping strategy. */
module Formatters {
  import opened Base
  import opened Text

  datatype Format = Bbl | Txt | Html

  /** The key under which the style registers each formatter. */
  function FormatName(f: Format): string {
    match f
    case Bbl => "bbl"
    case Txt => "txt"
    case Html => "html"
  }

  /** `Style.formats()`: the registered format keys. */
  const FormatNames: set<string> := {"bbl", "txt", "html"}

  /** Formatter lookup at style construction; an unknown key fails the assertion. */
  function FormatByName(name: string): (r: Result<Format>)
    ensures r.Success? <==> name in FormatNames
    ensures r.Success? ==> FormatName(r.value) == name
    ensures r.Failure? ==> r.error == UnknownFormat(name)
  {
    if name == "bbl" then Success(Bbl)
    else if name == "txt" then Success(Txt)
    else if name == "html" then Success(Html)
    else Failure(UnknownFormat(name))
  }

  /** Every formatter is found again under its own key. */
  lemma FormatByNameRoundTrip(f: Format)
    ensures FormatName(f) in FormatNames
    ensures FormatByName(FormatName(f)) == Success(f)
  {
  }

  /** The marker substituted for `{etalchar}` in generated labels. */
  function EtalChar(f: Format): string {
    match f
    case Bbl => "{\\etalchar{+}}"
    case Txt => "+"
    case Html => "+"
  }

  /** Opening text of the document; the bbl list is sized by the longest label. */
  function Header(f: Format, longest: string): string {
    match f
    case Bbl => "\\newcommand{\\etalchar}[1]{$^{#1}$}\n" + "\\begin{thebibliography}{" + longest + "}\n"
    case Txt => ""
    case Html => "<table>"
  }

  function Footer(f: Format): string {
    match f
    case Bbl => "\n\\end{thebibliography}\n"
    case Txt => ""
    case Html => "</table>"
  }

  /** One bibliography item around a rendered entry; `toLatex` is the external
      LaTeX escaping routine the bbl formatter applies to the entry. */
  function Item(f: Format, toLatex: string -> string, key: string, lbl: string, rendered: string): string {
    match f
    case Bbl =>
      var bracket := if lbl != "" then "[" + lbl + "]" else lbl;
      "\n" + ("\\bibitem" + bracket + "{" + key + "}\n") + toLatex(rendered) + "\n"
    case Txt => rendered + "\n"
    case Html =>
      "<tr class=\"xtxentry\"><td class=\"xtxlabel\">"
      + "<a name=\"xtx:" + lbl + "\">" + lbl + "</a></td><td class=\"xtxtext\">"
      + rendered + "</td></tr>\n"
  }

  /** Wraps one block after stripping surrounding whitespace. */
  function Block(f: Format, text: string): (r: string)
    ensures f != Html ==> Trimmed(r) && (r == "" <==> AllSpace(text))
    ensures f == Html ==> r != ""
  {
    match f
    case Bbl => Strip(text)
    case Txt => Strip(text)
    case Html => "<span>" + Strip(text) + "</span>"
  }

  function BlockSep(f: Format): string {
    match f
    case Bbl => "\n\\newblock "
    case Txt => "  "
    case Html => "\n"
  }

  function Emph(f: Format, text: string): string {
    match f
    case Bbl => "\\emph{" + Strip(text) + "}"
    case Txt => Strip(text)
    case Html => "<em>" + Strip(text) + "</em>"
  }

  /** Every format strips the text before wrapping it, so surrounding whitespace
      never matters ... */
  lemma BlockIgnoresPadding(f: Format, text: string, a: string, b: string)
    requires AllSpace(a) && AllSpace(b)
    ensures Block(f, a + text + b) == Block(f, text)
  {
    StripIgnoresPadding(a, text, b);
  }

  /** ... and wrapping a block again changes nothing. */
  lemma BlockIdempotent(f: Format, text: string)
    requires f != Html
    ensures Block(f, Block(f, text)) == Block(f, text)
  {
    StripIdempotent(text);
  }

  /** An HTML block is never empty, even around empty text ... */
  lemma HtmlEmptyBlock()
    ensures Block(Html, "") == "<span></span>"
  {
    assert AllSpace("");
  }

  /** ... and wrapping it again nests the spans, since the inner block is already trimmed. */
  lemma HtmlBlockNesting(text: string)
    ensures Block(Html, Block(Html, text)) == "<span>" + Block(Html, text) + "</span>"
  {
    var inner := Block(Html, text);
    SpanTrimmed(Strip(text));
    StripOfTrimmed(inner);
  }

  lemma SpanTrimmed(t: string)
    ensures Trimmed("<span>" + t + "</span>")
  {
    var s := "<span>" + t + "</span>";
    assert s[0] == '<' && s[|s| - 1] == '>';
  }

  /** Emphasis strips its text too, so surrounding whitespace never matters ... */
  lemma EmphIgnoresPadding(f: Format, text: string, a: string, b: string)
    requires AllSpace(a) && AllSpace(b)
    ensures Emph(f, a + text + b) == Emph(f, text)
  {
    StripIgnoresPadding(a, text, b);
  }

  /** ... and plain text has no emphasis markup: emphasised text is a bare block. */
  lemma TxtEmphIsPlain(text: string)
    ensures Emph(Txt, text) == Block(Txt, text)
    ensures Emph(Txt, text) == "" <==> AllSpace(text)
  {
  }

  /** Only the bbl header depends on the longest label: it opens the bibliography
      environment sized by that label, which the bbl footer closes. HTML frames the
      document in a table; plain text has no frame. */
  lemma HeaderFooterFrame(f: Format, longest: string)
    ensures f != Bbl ==> forall other :: Header(f, other) == Header(f, longest)
    ensures f == Bbl ==>
      var h := Header(f, longest); var open := "\\begin{thebibliography}{" + longest + "}\n";
      |h| >= |open| && h[|h| - |open|..] == open &&
      Footer(f) == "\n\\end{thebibliography}\n"
    ensures f == Html ==> Header(f, longest) == "<table>" && Footer(f) == "</table>"
    ensures f == Txt ==> Header(f, longest) == "" && Footer(f) == ""
  {
    if f == Bbl {
      var open := "\\begin{thebibliography}{" + longest + "}\n";
      var h := Header(f, longest);
      assert h == "\\newcommand{\\etalchar}[1]{$^{#1}$}\n" + open;
    }
  }

  /** Every block separator starts with whitespace, so joined blocks never run
      into each other. */
  lemma BlockSepStartsWithSpace(f: Format)
    ensures BlockSep(f) != "" && IsSpace(BlockSep(f)[0])
  {
  }

  /** The bbl item brackets its label exactly when the label is non-empty. */
  lemma BblItemShape(toLatex: string -> string, key: string, lbl: string, rendered: string)
    ensures lbl != "" ==>
      Item(Bbl, toLatex, key, lbl, rendered) ==
      "\n\\bibitem[" + lbl + "]{" + key + "}\n" + toLatex(rendered) + "\n"
    ensures lbl == "" ==>
      Item(Bbl, toLatex, key, lbl, rendered) ==
      "\n\\bibitem{" + key + "}\n" + toLatex(rendered) + "\n"
  {
  }

  /** The txt document is the entries alone, each on a line of its own. */
  lemma TxtItemShape(toLatex: string -> string, key: string, lbl: string, rendered: string)
    ensures Item(Txt, toLatex, key, lbl, rendered) == rendered + "\n"
    ensures Header(Txt, lbl) == "" && Footer(Txt) == ""
  {
  }

  /** The HTML item ends with the entry in the text cell. */
  lemma HtmlItemShape(toLatex: string -> string, key: string, lbl: string, rendered: string)
    ensures var h := Item(Html, toLatex, key, lbl, rendered);
      |h| > |rendered| && h[|h| - |rendered| - 11..] == rendered + "</td></tr>\n"
  {
  }
}

=== FILE: records.dfy ===
/** The six record kinds of the plain style and their renderers. Each renderer
    builds an author block, a title block and a detail block, and joins the
    non-empty ones with the formatter's block separator.

    Every renderer appears twice: as a method that follows the source statement by
    statement, and as a declarative reference (`<Kind>Entry`). For the first five
    kinds the reference lists the present detail fragments in order and chains them;
    the url reference is the link followed by its access date, when complete. The
    method's contract equates the two. */
module Records {
  import opened Base
  import opened Text
  import opened Formatters
  import opened Fields

  datatype Article = Article(
    author: seq<Author>, title: string, journal: Named, year: Option<string>,
    volume: Option<string>, number: Option<string>, pages: Option<string>)

  datatype Book = Book(
    author: seq<Author>, title: string, publisher: Option<Named>, address: Option<Address>,
    year: Option<string>)

  datatype InProceedings = InProceedings(
    author: seq<Author>, title: string, booktitle: Option<Booktitle>, pages: Option<string>,
    address: Option<Address>, year: Option<string>, month: Option<Named>)

  datatype Misc = Misc(
    author: seq<Author>, title: Option<string>, howpublished: Option<string>,
    booktitle: Option<Booktitle>, address: Option<Address>, year: Option<string>)

  datatype TechReport = TechReport(
    author: seq<Author>, title: string, number: Option<string>, institution: Option<string>,
    address: Option<Address>, year: Option<string>, month: Option<Named>)

  datatype Url = Url(
    author: seq<Author>, title: Option<string>, url: string, accessmonth: Option<Named>,
    accessday: Option<Named>, accessyear: Option<string>)

  /** The kinds that have a `render_<kind>` renderer. */
  const RecordKinds: set<string> := {"article", "book", "inproceedings", "misc", "techreport", "url"}

  /** The kind name of a record the style cannot render. */
  type OtherKind = k: string | k !in RecordKinds witness ""

  /** A bibliography record: one of the six kinds the style renders, or a record of
      any other kind, which has no renderer but still carries the fields the sort key
      reads (each absent when that kind does not allow it). */
  datatype Record =
    | ArticleRecord(article: Article)
    | BookRecord(book: Book)
    | InProceedingsRecord(inproceedings: InProceedings)
    | MiscRecord(misc: Misc)
    | TechReportRecord(techreport: TechReport)
    | UrlRecord(urlEntry: Url)
    | OtherRecord(kind: OtherKind, author: seq<Author>, title: Option<string>,
                  booktitle: Option<Booktitle>, journal: Option<Named>, year: Option<string>)

  /** The record's kind name, as the source's `obj.kind`. */
  function KindOf(rec: Record): (k: string)
    ensures k in RecordKinds <==> !rec.OtherRecord?
  {
    match rec
    case ArticleRecord(_) => "article"
    case BookRecord(_) => "book"
    case InProceedingsRecord(_) => "inproceedings"
    case MiscRecord(_) => "misc"
    case TechReportRecord(_) => "techreport"
    case UrlRecord(_) => "url"
    case OtherRecord(k, _, _, _, _, _) => k
  }

  /** What a renderer reads besides the record: helpers, formatter and flags. */
  datatype Context = Context(ext: Externals, fmt: Format, flags: set<string>)

  /** Python truthiness of an optional string: present and non-empty. */
  predicate Truthy(o: Option<string>) {
    o.Some? && o.value != ""
  }

  /** The one-element fragment list of a truthy value, else no fragment. */
  function Fragment(o: Option<string>): seq<string> {
    if Truthy(o) then [o.value] else []
  }

  function OrEmpty(o: Option<string>): string {
    if Truthy(o) then o.value else ""
  }

  /** The detail text grown fragment by fragment: before each fragment the text so
      far is punctuated with ',' and ' ' (the `punctuate(third, ',', ' ') + x` step). */
  function Chain(punctuate: (string, string, string) -> string, acc: string, frags: seq<string>): string
    decreases |frags|
  {
    if |frags| == 0 then acc
    else Chain(punctuate, punctuate(acc, ",", " ") + frags[0], frags[1..])
  }

  /** Appending one fragment to a chain is one more punctuate-then-append step. */
  lemma {:induction false} ChainSnoc(punctuate: (string, string, string) -> string, acc: string,
                                     frags: seq<string>, x: string)
    ensures Chain(punctuate, acc, frags + [x]) == punctuate(Chain(punctuate, acc, frags), ",", " ") + x
    decreases |frags|
  {
    if |frags| == 0 {
      assert frags + [x] == [x];
      assert [x][1..] == [];
    } else {
      assert (frags + [x])[1..] == frags[1..] + [x];
      ChainSnoc(punctuate, punctuate(acc, ",", " ") + frags[0], frags[1..], x);
    }
  }

  /** One optional fragment step of a renderer, in both outcomes: a truthy value is
      appended after punctuating, anything else leaves the chain as it was. */
  lemma ChainStep(punctuate: (string, string, string) -> string, acc: string, frags: seq<string>,
                  third: string, o: Option<string>)
    requires third == Chain(punctuate, acc, frags)
    ensures Truthy(o) ==> Chain(punctuate, acc, frags + Fragment(o)) == punctuate(third, ",", " ") + o.value
    ensures !Truthy(o) ==> Chain(punctuate, acc, frags + Fragment(o)) == third
  {
    if Truthy(o) {
      ChainSnoc(punctuate, acc, frags, o.value);
    } else {
      assert frags + Fragment(o) == frags;
    }
  }

  /** The author or title block: `block(punctuate(text, '.', ''))` when the text is
      non-empty, otherwise no block. */
  function HeadBlock(cx: Context, text: string): string {
    if text != "" then Block(cx.fmt, cx.ext.punctuate(text, ".", "")) else ""
  }

  /** The detail block: the detail text closed with '.' and wrapped. */
  function DetailBlock(cx: Context, raw: string): string {
    Block(cx.fmt, cx.ext.punctuate(raw, ".", ""))
  }

  /** `block_sep().join([b for b in (first, second, third) if b])`. */
  function Compose(fmt: Format, first: string, second: string, third: string): string {
    Join(BlockSep(fmt), NonEmpty([first, second, third]))
  }

  /** The `first` and `second` blocks every renderer starts with. A block is present
      exactly when its text is non-empty and, for bbl and txt, the punctuated text is
      not all whitespace; a present block is the punctuated text, wrapped. */
  method HeadBlocks(cx: Context, author: string, title: string) returns (first: string, second: string)
    ensures first == HeadBlock(cx, author)
    ensures second == HeadBlock(cx, title)
    ensures first != "" <==> author != "" && (cx.fmt == Html || !AllSpace(cx.ext.punctuate(author, ".", "")))
    ensures second != "" <==> title != "" && (cx.fmt == Html || !AllSpace(cx.ext.punctuate(title, ".", "")))
    ensures first != "" ==> first == Block(cx.fmt, cx.ext.punctuate(author, ".", ""))
    ensures second != "" ==> second == Block(cx.fmt, cx.ext.punctuate(title, ".", ""))
  {
    first, second := "", "";
    if author != "" {
      first := Block(cx.fmt, cx.ext.punctuate(author, ".", ""));
    }
    if title != "" {
      second := Block(cx.fmt, cx.ext.punctuate(title, ".", ""));
    }
  }

  /** The closing lines every renderer ends with: finish the detail text with '.',
      wrap it as a block, and join the non-empty blocks. */
  method CloseEntry(cx: Context, first: string, second: string, third: string) returns (r: string)
    ensures r == Compose(cx.fmt, first, second, DetailBlock(cx, third))
    ensures var d := DetailBlock(cx, third); var sep := BlockSep(cx.fmt);
      && (first != "" && second != "" && d != "" ==> r == first + sep + second + sep + d)
      && (first != "" && second != "" && d == "" ==> r == first + sep + second)
      && (first != "" && second == "" && d != "" ==> r == first + sep + d)
      && (first == "" && second != "" && d != "" ==> r == second + sep + d)
      && (first != "" && second == "" && d == "" ==> r == first)
      && (first == "" && second != "" && d == "" ==> r == second)
      && (first == "" && second == "" ==> r == d)
    ensures var d := DetailBlock(cx, third); d != "" ==> |r| >= |d| && r[|r| - |d|..] == d
  {
    var closed := cx.ext.punctuate(third, ".", "");
    closed := Block(cx.fmt, closed);
    r := Join(BlockSep(cx.fmt), NonEmpty([first, second, closed]));
    ComposeOrder(cx.fmt, first, second, closed);
    if closed != "" {
      DetailEndsEntry(cx.fmt, first, second, closed);
    }
  }

  // ---------------------------------------------------------------- article

  /** The journal, emphasised, behind "In " under `add-in`; nothing without a journal name. */
  function ArticleVenue(cx: Context, journal: string): string {
    if journal != "" then (if "add-in" in cx.flags then "In " else "") + Emph(cx.fmt, journal) else ""
  }

  /** The volume/number/pages fragment: `vol(num):pages` when a volume or number is
      present, the page phrase for pages alone. */
  function VolNumPages(volume: Option<string>, number: Option<string>, pages: Option<string>): string {
    if Truthy(volume) || Truthy(number) then
      OrEmpty(volume)
      + (if Truthy(number) then "(" + number.value + ")" else "")
      + (if Truthy(pages) then ":" + pages.value else "")
    else if Truthy(pages) then RenderPages(pages.value)
    else ""
  }

  function ArticleFragments(a: Article): seq<string> {
    Fragment(Some(VolNumPages(a.volume, a.number, a.pages))) + Fragment(a.year)
  }

  function ArticleEntry(cx: Context, a: Article): string {
    Compose(cx.fmt,
      HeadBlock(cx, RenderAuthor(cx.ext, cx.flags, a.author)),
      HeadBlock(cx, RenderTitle(cx.ext, cx.flags, a.title)),
      DetailBlock(cx, Chain(cx.ext.punctuate, ArticleVenue(cx, RenderJournal(cx.flags, a.journal)), ArticleFragments(a))))
  }

  /** The volume/number/pages accumulation of `render_article`. */
  method ArticleVolNumPages(volume: Option<string>, number: Option<string>, pages: Option<string>)
    returns (r: string)
    ensures !Truthy(volume) && !Truthy(number) && !Truthy(pages) ==> r == ""
    ensures !Truthy(volume) && !Truthy(number) && Truthy(pages) ==> r == RenderPages(pages.value)
    ensures Truthy(volume) || Truthy(number) ==>
      r == OrEmpty(volume)
           + (if Truthy(number) then "(" + number.value + ")" else "")
           + (if Truthy(pages) then ":" + pages.value else "")
  {
    r := "";
    if Truthy(number) || Truthy(volume) || Truthy(pages) {
      if Truthy(volume) {
        r := r + volume.value;
      }
      if Truthy(number) {
        r := r + "(" + number.value + ")";
      }
      if Truthy(pages) {
        if Truthy(volume) || Truthy(number) {
          r := r + ":" + pages.value;
        } else {
          r := r + RenderPages(pages.value);
        }
      }
    }
  }

  /** The opening of the article detail text. */
  method JournalVenue(cx: Context, journal: string) returns (third: string)
    ensures third == ArticleVenue(cx, journal)
    ensures journal == "" ==> third == ""
    ensures journal != "" ==> var e := Emph(cx.fmt, journal);
      && |third| >= |e| && third[|third| - |e|..] == e
      && ("add-in" in cx.flags ==> |third| == |e| + 3 && third[..3] == "In ")
      && ("add-in" !in cx.flags ==> third == e)
  {
    third := "";
    if journal != "" {
      if "add-in" in cx.flags {
        third := third + "In ";
      }
      third := third + Emph(cx.fmt, journal);
    }
  }

  method RenderArticle(cx: Context, a: Article) returns (r: string)
    ensures r == ArticleEntry(cx, a)
  {
    var author := RenderAuthor(cx.ext, cx.flags, a.author);
    var title := RenderTitle(cx.ext, cx.flags, a.title);
    var journal := RenderJournal(cx.flags, a.journal);
    var first, second := HeadBlocks(cx, author, title);
    var third := JournalVenue(cx, journal);
    ghost var start := third;
    ghost var frags: seq<string> := [];
    var volnumpages := ArticleVolNumPages(a.volume, a.number, a.pages);
    if volnumpages != "" {
      ChainSnoc(cx.ext.punctuate, start, frags, volnumpages);
      third := cx.ext.punctuate(third, ",", " ");
      third := third + volnumpages;
      frags := frags + [volnumpages];
      assert third == Chain(cx.ext.punctuate, start, frags);
    }
    if Truthy(a.year) {
      ChainSnoc(cx.ext.punctuate, start, frags, a.year.value);
      third := cx.ext.punctuate(third, ",", " ") + a.year.value;
      frags := frags + [a.year.value];
      assert third == Chain(cx.ext.punctuate, start, frags);
    }
    assert frags == ArticleFragments(a);
    assert third == Chain(cx.ext.punctuate, start, frags);
    r := CloseEntry(cx, first, second, third);
  }

  // ---------------------------------------------------------------- book

  function BookPublisher(cx: Context, b: Book): Option<string> {
    if b.publisher.Some? then Some(RenderStr(cx.flags, b.publisher.value, "publisher")) else None
  }

  function RenderOptAddress(cx: Context, a: Option<Address>): Option<string> {
    if a.Some? then Some(RenderAddress(cx.flags, a.value)) else None
  }

  function BookEntry(cx: Context, b: Book): string {
    Compose(cx.fmt,
      HeadBlock(cx, RenderAuthor(cx.ext, cx.flags, b.author)),
      HeadBlock(cx, RenderTitle(cx.ext, cx.flags, b.title)),
      DetailBlock(cx, Chain(cx.ext.punctuate, OrEmpty(BookPublisher(cx, b)),
                            Fragment(RenderOptAddress(cx, b.address)) + Fragment(b.year))))
  }

  method RenderBook(cx: Context, b: Book) returns (r: string)
    ensures r == BookEntry(cx, b)
  {
    var author := RenderAuthor(cx.ext, cx.flags, b.author);
    var title := RenderTitle(cx.ext, cx.flags, b.title);
    var publisher := BookPublisher(cx, b);
    var address := RenderOptAddress(cx, b.address);
    var year := b.year;
    var first, second := HeadBlocks(cx, author, title);
    var third := "";
    if Truthy(publisher) {
      third := publisher.value;
    }
    ghost var start := third;
    ghost var frags: seq<string> := [];
    ChainStep(cx.ext.punctuate, start, frags, third, address);
    if Truthy(address) {
      third := cx.ext.punctuate(third, ",", " ") + address.value;
    }
    frags := frags + Fragment(address);
    assert third == Chain(cx.ext.punctuate, start, frags);
    ChainStep(cx.ext.punctuate, start, frags, third, year);
    if Truthy(year) {
      third := cx.ext.punctuate(third, ",", " ") + year.value;
    }
    frags := frags + Fragment(year);
    assert third == Chain(cx.ext.punctuate, start, frags);
    assert frags == Fragment(RenderOptAddress(cx, b.address)) + Fragment(b.year);
    r := CloseEntry(cx, first, second, third);
  }

  // ---------------------------------------------------------------- inproceedings

  /** "In " under `add-in`, then "Proceedings of the " under `add-proceedings`,
      else "Proc. of " under `add-proc`. */
  function ProceedingsPrefix(flags: set<string>): string {
    (if "add-in" in flags then "In " else "")
    + (if "add-proceedings" in flags then "Proceedings of the "
       else if "add-proc" in flags then "Proc. of " else "")
  }

  function InProceedingsBooktitle(cx: Context, p: InProceedings): Option<string> {
    if p.booktitle.Some? then Some(RenderBooktitle(cx.flags, p.booktitle.value)) else None
  }

  /** The proceedings prefix and the emphasised booktitle, closed with a comma. */
  function InProceedingsVenue(cx: Context, booktitle: Option<string>): string {
    if Truthy(booktitle) then
      ProceedingsPrefix(cx.flags) + cx.ext.punctuate(Emph(cx.fmt, booktitle.value), ",", " ")
    else ""
  }

  /** "month year" when both are present, the year alone when only it is. */
  function MonthYear(month: Option<string>, year: Option<string>): Option<string> {
    if Truthy(month) && Truthy(year) then Some(month.value + " " + year.value)
    else if Truthy(year) then year
    else None
  }

  function RenderOptMonth(cx: Context, m: Option<Named>): Option<string> {
    if m.Some? then Some(RenderMonth(cx.flags, m.value)) else None
  }

  function InProceedingsPages(p: InProceedings): Option<string> {
    if p.pages.Some? then Some(RenderPages(p.pages.value)) else None
  }

  function InProceedingsFragments(cx: Context, p: InProceedings): seq<string> {
    Fragment(InProceedingsPages(p))
    + Fragment(RenderOptAddress(cx, p.address))
    + Fragment(MonthYear(RenderOptMonth(cx, p.month), p.year))
  }

  function InProceedingsEntry(cx: Context, p: InProceedings): string {
    Compose(cx.fmt,
      HeadBlock(cx, RenderAuthor(cx.ext, cx.flags, p.author)),
      HeadBlock(cx, RenderTitle(cx.ext, cx.flags, p.title)),
      DetailBlock(cx, Chain(cx.ext.punctuate, InProceedingsVenue(cx, InProceedingsBooktitle(cx, p)), InProceedingsFragments(cx, p))))
  }

  /** The opening of the inproceedings detail text. */
  method ProceedingsVenue(cx: Context, booktitle: Option<string>) returns (third: string)
    ensures third == InProceedingsVenue(cx, booktitle)
    ensures !Truthy(booktitle) ==> third == ""
    ensures Truthy(booktitle) ==>
      var tail := cx.ext.punctuate(Emph(cx.fmt, booktitle.value), ",", " ");
      var lead := if "add-in" in cx.flags then "In " else "";
      && |third| >= |tail| && third[|third| - |tail|..] == tail
      && ("add-proceedings" in cx.flags ==> third == lead + "Proceedings of the " + tail)
      && ("add-proceedings" !in cx.flags && "add-proc" in cx.flags ==> third == lead + "Proc. of " + tail)
      && ("add-proceedings" !in cx.flags && "add-proc" !in cx.flags ==> third == lead + tail)
  {
    third := "";
    if Truthy(booktitle) {
      if "add-in" in cx.flags {
        third := third + "In ";
      }
      if "add-proceedings" in cx.flags {
        third := third + "Proceedings of the ";
      } else if "add-proc" in cx.flags {
        third := third + "Proc. of ";
      }
      assert third == ProceedingsPrefix(cx.flags);
      third := third + cx.ext.punctuate(Emph(cx.fmt, booktitle.value), ",", " ");
    }
  }

  /** The detail text of an inproceedings record: the venue, then pages, address
      and date, each punctuated onto the text before it. */
  method InProceedingsDetail(cx: Context, p: InProceedings) returns (third: string)
    ensures third == Chain(cx.ext.punctuate, InProceedingsVenue(cx, InProceedingsBooktitle(cx, p)), InProceedingsFragments(cx, p))
  {
    var booktitle := InProceedingsBooktitle(cx, p);
    var pages := InProceedingsPages(p);
    var address := RenderOptAddress(cx, p.address);
    var year := p.year;
    var month := RenderOptMonth(cx, p.month);
    third := ProceedingsVenue(cx, booktitle);
    ghost var start := third;
    ghost var frags: seq<string> := [];
    ChainStep(cx.ext.punctuate, start, frags, third, pages);
    if Truthy(pages) {
      third := cx.ext.punctuate(third, ",", " ") + pages.value;
    }
    frags := frags + Fragment(pages);
    assert third == Chain(cx.ext.punctuate, start, frags);
    ChainStep(cx.ext.punctuate, start, frags, third, address);
    if Truthy(address) {
      third := cx.ext.punctuate(third, ",", " ") + address.value;
    }
    frags := frags + Fragment(address);
    assert third == Chain(cx.ext.punctuate, start, frags);
    ghost var date := MonthYear(month, year);
    ChainStep(cx.ext.punctuate, start, frags, third, date);
    if Truthy(month) && Truthy(year) {
      third := cx.ext.punctuate(third, ",", " ");
      GroupLastThree(third, month.value, " ", year.value);
      third := third + month.value + " " + year.value;
    } else if Truthy(year) {
      third := cx.ext.punctuate(third, ",", " ");
      third := third + year.value;
    }
    frags := frags + Fragment(date);
    assert third == Chain(cx.ext.punctuate, start, frags);
    assert frags == InProceedingsFragments(cx, p);
  }

  method RenderInProceedings(cx: Context, p: InProceedings) returns (r: string)
    ensures r == InProceedingsEntry(cx, p)
  {
    var author := RenderAuthor(cx.ext, cx.flags, p.author);
    var title := RenderTitle(cx.ext, cx.flags, p.title);
    var first, second := HeadBlocks(cx, author, title);
    var third := InProceedingsDetail(cx, p);
    r := CloseEntry(cx, first, second, third);
  }

  // ---------------------------------------------------------------- misc

  function MiscAuthor(cx: Context, m: Misc): string {
    if |m.author| > 0 then RenderAuthor(cx.ext, cx.flags, m.author) else ""
  }

  function MiscTitle(cx: Context, m: Misc): string {
    if m.title.Some? then RenderTitle(cx.ext, cx.flags, m.title.value) else ""
  }

  function MiscBooktitle(cx: Context, m: Misc): Option<string> {
    if m.booktitle.Some? then Some(RenderBooktitle(cx.flags, m.booktitle.value)) else None
  }

  function MiscFragments(cx: Context, m: Misc): seq<string> {
    var booktitle := MiscBooktitle(cx, m);
    (if Truthy(booktitle) then [Emph(cx.fmt, booktitle.value)] else [])
    + Fragment(RenderOptAddress(cx, m.address))
    + Fragment(m.year)
  }

  function MiscEntry(cx: Context, m: Misc): string {
    Compose(cx.fmt,
      HeadBlock(cx, MiscAuthor(cx, m)),
      HeadBlock(cx, MiscTitle(cx, m)),
      DetailBlock(cx, Chain(cx.ext.punctuate, OrEmpty(m.howpublished), MiscFragments(cx, m))))
  }

  /** The detail text of a misc record: how it was published, then the venue,
      address and year, each punctuated onto the text before it. */
  method MiscDetail(cx: Context, m: Misc) returns (third: string)
    ensures third == Chain(cx.ext.punctuate, OrEmpty(m.howpublished), MiscFragments(cx, m))
  {
    var howpub := m.howpublished;
    var booktitle := MiscBooktitle(cx, m);
    var address := RenderOptAddress(cx, m.address);
    var year := m.year;
    third := "";
    if Truthy(howpub) {
      third := third + howpub.value;
    }
    ghost var start := third;
    ghost var frags: seq<string> := [];
    ghost var venue := if Truthy(booktitle) then [Emph(cx.fmt, booktitle.value)] else [];
    if Truthy(booktitle) {
      ChainSnoc(cx.ext.punctuate, start, frags, Emph(cx.fmt, booktitle.value));
      assert frags + venue == [Emph(cx.fmt, booktitle.value)];
      third := cx.ext.punctuate(third, ",", " ") + Emph(cx.fmt, booktitle.value);
    }
    frags := frags + venue;
    assert third == Chain(cx.ext.punctuate, start, frags);
    ChainStep(cx.ext.punctuate, start, frags, third, address);
    if Truthy(address) {
      third := cx.ext.punctuate(third, ",", " ") + address.value;
    }
    frags := frags + Fragment(address);
    assert third == Chain(cx.ext.punctuate, start, frags);
    ChainStep(cx.ext.punctuate, start, frags, third, year);
    if Truthy(year) {
      third := cx.ext.punctuate(third, ",", " ") + year.value;
    }
    frags := frags + Fragment(year);
    assert start == OrEmpty(m.howpublished);
    assert frags == MiscFragments(cx, m);
  }

  method RenderMisc(cx: Context, m: Misc) returns (r: string)
    ensures r == MiscEntry(cx, m)
  {
    var author := if |m.author| > 0 then Some(RenderAuthor(cx.ext, cx.flags, m.author)) else None;
    var title := if m.title.Some? then Some(RenderTitle(cx.ext, cx.flags, m.title.value)) else None;
    var first, second := HeadBlocks(cx, OrEmpty(author), OrEmpty(title));
    var third := MiscDetail(cx, m);
    assert first == HeadBlock(cx, MiscAuthor(cx, m));
    assert second == HeadBlock(cx, MiscTitle(cx, m));
    r := CloseEntry(cx, first, second, third);
  }

  // ---------------------------------------------------------------- techreport

  /** "Technical Report N", or bare "Technical Report" without a number. */
  function ReportPhrase(number: Option<string>): string {
    if Truthy(number) then "Technical Report " + number.value else "Technical Report"
  }

  function TechReportFragments(cx: Context, t: TechReport): seq<string> {
    Fragment(RenderOptAddress(cx, t.address)) + [ReportPhrase(t.number)] + Fragment(t.year)
  }

  function TechReportEntry(cx: Context, t: TechReport): string {
    Compose(cx.fmt,
      HeadBlock(cx, RenderAuthor(cx.ext, cx.flags, t.author)),
      HeadBlock(cx, RenderTitle(cx.ext, cx.flags, t.title)),
      DetailBlock(cx, Chain(cx.ext.punctuate, OrEmpty(t.institution), TechReportFragments(cx, t))))
  }

  method RenderTechReport(cx: Context, t: TechReport) returns (r: string)
    ensures r == TechReportEntry(cx, t)
  {
    var author := RenderAuthor(cx.ext, cx.flags, t.author);
    var title := RenderTitle(cx.ext, cx.flags, t.title);
    var number := t.number;
    var insti := t.institution;
    var address := RenderOptAddress(cx, t.address);
    var year := t.year;
    var month := RenderOptMonth(cx, t.month);
    var first, second := HeadBlocks(cx, author, title);
    var third := "";
    if Truthy(insti) {
      third := insti.value;
    }
    ghost var start := third;
    ghost var frags: seq<string> := [];
    ChainStep(cx.ext.punctuate, start, frags, third, address);
    if Truthy(address) {
      third := cx.ext.punctuate(third, ",", " ") + address.value;
    }
    frags := frags + Fragment(address);
    assert third == Chain(cx.ext.punctuate, start, frags);
    ChainSnoc(cx.ext.punctuate, start, frags, ReportPhrase(number));
    if Truthy(number) {
      third := cx.ext.punctuate(third, ",", " ");
      GroupLastTwo(third, "Technical Report ", number.value);
      third := third + "Technical Report " + number.value;
    } else {
      third := cx.ext.punctuate(third, ",", " ");
      third := third + "Technical Report";
    }
    frags := frags + [ReportPhrase(number)];
    assert third == Chain(cx.ext.punctuate, start, frags);
    ChainStep(cx.ext.punctuate, start, frags, third, year);
    if Truthy(year) {
      third := cx.ext.punctuate(third, ",", " ") + year.value;
    }
    frags := frags + Fragment(year);
    assert third == Chain(cx.ext.punctuate, start, frags);
    assert frags == TechReportFragments(cx, t);
    r := CloseEntry(cx, first, second, third);
  }

  // ---------------------------------------------------------------- url

  function UrlAuthor(cx: Context, u: Url): string {
    if |u.author| > 0 then RenderAuthor(cx.ext, cx.flags, u.author) else ""
  }

  function UrlTitle(cx: Context, u: Url): string {
    if u.title.Some? then RenderTitle(cx.ext, cx.flags, u.title.value) else ""
  }

  /** "Month Day, Year" when all three access parts are present and non-empty. */
  function AccessDate(cx: Context, u: Url): Option<string> {
    var month := RenderOptMonth(cx, u.accessmonth);
    var day := if u.accessday.Some? then Some(RenderStr(cx.flags, u.accessday.value, "day")) else None;
    if Truthy(month) && Truthy(day) && Truthy(u.accessyear) then
      Some(month.value + " " + day.value + ", " + u.accessyear.value)
    else None
  }

  /** The url detail before its final punctuation: the link, or the link's own
      closed block followed directly by "Accessed " and the access date. */
  function UrlText(cx: Context, u: Url): string {
    var date := AccessDate(cx, u);
    if date.Some? then Block(cx.fmt, cx.ext.punctuate(u.url, ".", "")) + "Accessed " + date.value
    else u.url
  }

  function UrlEntry(cx: Context, u: Url): string {
    Compose(cx.fmt,
      HeadBlock(cx, UrlAuthor(cx, u)),
      HeadBlock(cx, UrlTitle(cx, u)),
      Block(cx.fmt, DetailBlock(cx, UrlText(cx, u))))
  }

  /** The head blocks and the link text with its accessed date, before the final wrapping. */
  method UrlDetail(cx: Context, u: Url) returns (first: string, second: string, third: string)
    ensures first == HeadBlock(cx, UrlAuthor(cx, u))
    ensures second == HeadBlock(cx, UrlTitle(cx, u))
    ensures third == UrlText(cx, u)
    ensures AccessDate(cx, u).None? ==> third == u.url
  {
    var author := if |u.author| > 0 then Some(RenderAuthor(cx.ext, cx.flags, u.author)) else None;
    var title := if u.title.Some? then Some(RenderTitle(cx.ext, cx.flags, u.title.value)) else None;
    var link := u.url;
    var month := RenderOptMonth(cx, u.accessmonth);
    var day := if u.accessday.Some? then Some(RenderStr(cx.flags, u.accessday.value, "day")) else None;
    var year := u.accessyear;
    first, second := HeadBlocks(cx, OrEmpty(author), OrEmpty(title));
    third := link;
    if Truthy(month) && Truthy(day) && Truthy(year) {
      third := Block(cx.fmt, cx.ext.punctuate(third, ".", ""));
      GroupLastFive(third, "Accessed ", month.value, " ", day.value, ", ", year.value);
      third := third + "Accessed " + month.value + " " + day.value + ", " + year.value;
    }
  }

  /** The url's closing: its detail block is wrapped once more before composing. */
  method CloseUrl(cx: Context, first: string, second: string, third: string) returns (r: string)
    ensures r == Compose(cx.fmt, first, second, Block(cx.fmt, DetailBlock(cx, third)))
  {
    var closed := Block(cx.fmt, cx.ext.punctuate(third, ".", ""));
    closed := Block(cx.fmt, closed);
    r := Compose(cx.fmt, first, second, closed);
  }

  method RenderUrl(cx: Context, u: Url) returns (r: string)
    ensures r == UrlEntry(cx, u)
    ensures !Truthy(u.accessyear) ==> r == UrlEntry(cx, u.(accessmonth := None, accessday := None))
    ensures var d := DetailBlock(cx, UrlText(cx, u));
      cx.fmt == Html ==> |r| >= |d| + 7 && r[|r| - |d| - 7..] == d + "</span>"
    ensures var d := DetailBlock(cx, UrlText(cx, u));
      cx.fmt != Html && d != "" ==> |r| >= |d| && r[|r| - |d|..] == d
  {
    var first, second, third := UrlDetail(cx, u);
    r := CloseUrl(cx, first, second, third);
    if !Truthy(u.accessyear) {
      UrlDateNeedsAllParts(cx, u);
    }
    UrlEntryEnds(cx, u);
  }

  // ---------------------------------------------------------------- dispatch

  /** The rendered entry of a record; a kind without renderer fails, naming the kind. */
  function EntryText(cx: Context, rec: Record): (r: Result<string>)
    ensures r.Success? <==> !rec.OtherRecord?
  {
    match rec
    case ArticleRecord(a) => Success(ArticleEntry(cx, a))
    case BookRecord(b) => Success(BookEntry(cx, b))
    case InProceedingsRecord(p) => Success(InProceedingsEntry(cx, p))
    case MiscRecord(m) => Success(MiscEntry(cx, m))
    case TechReportRecord(t) => Success(TechReportEntry(cx, t))
    case UrlRecord(u) => Success(UrlEntry(cx, u))
    case OtherRecord(k, _, _, _, _, _) => Failure(UnsupportedCitation(k))
  }

  /** Dispatch on the record kind to its renderer. */
  method RenderRecord(cx: Context, rec: Record) returns (r: Result<string>)
    ensures r.Failure? <==> rec.OtherRecord?
    ensures r.Failure? ==> r.error == UnsupportedCitation(KindOf(rec))
    ensures r == EntryText(cx, rec)
  {
    match rec {
      case ArticleRecord(a) =>
        var s := RenderArticle(cx, a);
        r := Success(s);
        assert r == EntryText(cx, rec) by { assert EntryText(cx, rec) == Success(ArticleEntry(cx, a)); }
      case BookRecord(b) =>
        var s := RenderBook(cx, b);
        r := Success(s);
        assert r == EntryText(cx, rec) by { assert EntryText(cx, rec) == Success(BookEntry(cx, b)); }
      case InProceedingsRecord(p) =>
        var s := RenderInProceedings(cx, p);
        r := Success(s);
        assert r == EntryText(cx, rec) by { assert EntryText(cx, rec) == Success(InProceedingsEntry(cx, p)); }
      case MiscRecord(m) =>
        var s := RenderMisc(cx, m);
        r := Success(s);
        assert r == EntryText(cx, rec) by { assert EntryText(cx, rec) == Success(MiscEntry(cx, m)); }
      case TechReportRecord(t) =>
        var s := RenderTechReport(cx, t);
        r := Success(s);
        assert r == EntryText(cx, rec) by { assert EntryText(cx, rec) == Success(TechReportEntry(cx, t)); }
      case UrlRecord(u) =>
        var s := RenderUrl(cx, u);
        r := Success(s);
        assert r == EntryText(cx, rec) by { assert EntryText(cx, rec) == Success(UrlEntry(cx, u)); }
      case OtherRecord(k, _, _, _, _, _) =>
        r := Failure(UnsupportedCitation(k));
    }
  }

  // ---------------------------------------------------------------- properties

  /** A head block exists exactly when its text is non-empty and, for bbl and txt,
      the punctuated text is not all whitespace; in HTML every non-empty text gives one. */
  lemma HeadBlockPresence(cx: Context, text: string)
    ensures HeadBlock(cx, text) != "" <==>
      text != "" && (cx.fmt == Html || !AllSpace(cx.ext.punctuate(text, ".", "")))
  {
  }

  /** The surviving blocks are joined in the order author, title, detail, with the
      separator between neighbours and nowhere else. */
  lemma ComposeOrder(fmt: Format, a: string, b: string, c: string)
    ensures a != "" && b != "" && c != "" ==> Compose(fmt, a, b, c) == a + BlockSep(fmt) + b + BlockSep(fmt) + c
    ensures a != "" && b != "" && c == "" ==> Compose(fmt, a, b, c) == a + BlockSep(fmt) + b
    ensures a != "" && b == "" && c != "" ==> Compose(fmt, a, b, c) == a + BlockSep(fmt) + c
    ensures a == "" && b != "" && c != "" ==> Compose(fmt, a, b, c) == b + BlockSep(fmt) + c
    ensures a != "" && b == "" && c == "" ==> Compose(fmt, a, b, c) == a
    ensures a == "" && b != "" && c == "" ==> Compose(fmt, a, b, c) == b
    ensures a == "" && b == "" ==> Compose(fmt, a, b, c) == c
  {
    var sep := BlockSep(fmt);
    assert [a, b, c][1..] == [b, c] && [b, c][1..] == [c] && [c][1..] == [];
    var rc := if c == "" then [] else [c];
    assert NonEmpty([c]) == rc;
    var rb := if b == "" then rc else [b] + rc;
    assert NonEmpty([b, c]) == rb;
    var ra := if a == "" then rb else [a] + rb;
    assert NonEmpty([a, b, c]) == ra;
    if a != "" && b != "" && c != "" {
      assert ra == [a, b, c];
      JoinSmall(sep, a, b, c);
    } else if a != "" && b != "" {
      assert ra == [a, b];
      JoinSmall(sep, a, b, c);
    } else if a != "" && c != "" {
      assert ra == [a, c];
      JoinSmall(sep, a, c, c);
    } else if b != "" && c != "" {
      assert ra == [b, c];
      JoinSmall(sep, b, c, c);
    }
  }

  /** A non-empty detail block always ends the entry. */
  lemma DetailEndsEntry(fmt: Format, a: string, b: string, c: string)
    requires c != ""
    ensures var r := Compose(fmt, a, b, c); |r| >= |c| && r[|r| - |c|..] == c
  {
    ComposeOrder(fmt, a, b, c);
  }

  lemma HtmlBlockEnds(text: string)
    ensures var k := Block(Html, text); |k| >= 13 && k[|k| - 7..] == "</span>"
  {
  }

  lemma HtmlComposeEnds(first: string, second: string, text: string)
    ensures var r := Compose(Html, first, second, Block(Html, text)); |r| >= 13 && r[|r| - 7..] == "</span>"
  {
    HtmlBlockEnds(text);
    DetailEndsEntry(Html, first, second, Block(Html, text));
  }

  /** Every supported entry is the composition of two head blocks and a final block:
      the detail block, which for a url record is wrapped once more. */
  lemma EntryShape(cx: Context, rec: Record) returns (first: string, second: string, text: string)
    requires !rec.OtherRecord?
    ensures EntryText(cx, rec) == Success(Compose(cx.fmt, first, second, Block(cx.fmt, text)))
  {
    match rec {
      case ArticleRecord(a) =>
        first, second := HeadBlock(cx, RenderAuthor(cx.ext, cx.flags, a.author)),
                         HeadBlock(cx, RenderTitle(cx.ext, cx.flags, a.title));
        text := cx.ext.punctuate(Chain(cx.ext.punctuate, ArticleVenue(cx, RenderJournal(cx.flags, a.journal)),
                                       ArticleFragments(a)), ".", "");
      case BookRecord(b) =>
        first, second := HeadBlock(cx, RenderAuthor(cx.ext, cx.flags, b.author)),
                         HeadBlock(cx, RenderTitle(cx.ext, cx.flags, b.title));
        text := cx.ext.punctuate(Chain(cx.ext.punctuate, OrEmpty(BookPublisher(cx, b)),
                                       Fragment(RenderOptAddress(cx, b.address)) + Fragment(b.year)), ".", "");
      case InProceedingsRecord(p) =>
        first, second := HeadBlock(cx, RenderAuthor(cx.ext, cx.flags, p.author)),
                         HeadBlock(cx, RenderTitle(cx.ext, cx.flags, p.title));
        text := cx.ext.punctuate(Chain(cx.ext.punctuate, InProceedingsVenue(cx, InProceedingsBooktitle(cx, p)),
                                       InProceedingsFragments(cx, p)), ".", "");
      case MiscRecord(m) =>
        first, second := HeadBlock(cx, MiscAuthor(cx, m)), HeadBlock(cx, MiscTitle(cx, m));
        text := cx.ext.punctuate(Chain(cx.ext.punctuate, OrEmpty(m.howpublished), MiscFragments(cx, m)), ".", "");
      case TechReportRecord(t) =>
        first, second := HeadBlock(cx, RenderAuthor(cx.ext, cx.flags, t.author)),
                         HeadBlock(cx, RenderTitle(cx.ext, cx.flags, t.title));
        text := cx.ext.punctuate(Chain(cx.ext.punctuate, OrEmpty(t.institution), TechReportFragments(cx, t)), ".", "");
      case UrlRecord(u) =>
        first, second := HeadBlock(cx, UrlAuthor(cx, u)), HeadBlock(cx, UrlTitle(cx, u));
        text := DetailBlock(cx, UrlText(cx, u));
    }
  }

  /** In HTML the detail block is never dropped: every supported entry ends with the
      closing span of its detail block, even when the record has no detail fields. */
  lemma HtmlEntryKeepsDetail(cx: Context, rec: Record)
    requires cx.fmt == Html && !rec.OtherRecord?
    ensures EntryText(cx, rec).Success?
    ensures var t := EntryText(cx, rec).value; |t| >= 13 && t[|t| - 7..] == "</span>"
  {
    var first, second, text := EntryShape(cx, rec);
    HtmlComposeEnds(first, second, text);
  }


  /** A misc record without any field renders as its closed empty detail text alone:
      in bbl and txt, nothing exactly when that text is whitespace; in HTML, a non-empty
      span around that text, which is `<span></span>` exactly when the text is whitespace. */
  lemma EmptyMisc(cx: Context)
    ensures var e := MiscEntry(cx, Misc([], None, None, None, None, None));
      e == Block(cx.fmt, cx.ext.punctuate("", ".", "")) &&
      (cx.fmt != Html && AllSpace(cx.ext.punctuate("", ".", "")) ==> e == "") &&
      (cx.fmt == Html ==> e != "")
    ensures var e := MiscEntry(cx, Misc([], None, None, None, None, None));
      cx.fmt != Html ==> (e == "" <==> AllSpace(cx.ext.punctuate("", ".", "")))
    ensures var e := MiscEntry(cx, Misc([], None, None, None, None, None));
      cx.fmt == Html ==> (e == "<span></span>" <==> AllSpace(cx.ext.punctuate("", ".", "")))
  {
    var m := Misc([], None, None, None, None, None);
    assert MiscFragments(cx, m) == [];
    ComposeOrder(cx.fmt, "", "", DetailBlock(cx, ""));
  }

  /** "In " comes first, `add-proceedings` takes precedence over `add-proc`, and no
      other flag affects the proceedings prefix. */
  lemma ProceedingsPrefixFlags(flags: set<string>)
    ensures "add-in" in flags ==> ProceedingsPrefix(flags)[..3] == "In "
    ensures "add-in" !in flags && "add-proceedings" !in flags && "add-proc" !in flags ==>
      ProceedingsPrefix(flags) == ""
    ensures "add-proceedings" in flags ==> ProceedingsPrefix(flags) == ProceedingsPrefix(flags - {"add-proc"})
    ensures ProceedingsPrefix(flags) == ProceedingsPrefix(flags * {"add-in", "add-proceedings", "add-proc"})
  {
  }

  /** A month is printed only together with a year: without a year the month field
      does not affect the entry. */
  lemma InProceedingsMonthNeedsYear(cx: Context, p: InProceedings)
    requires !Truthy(p.year)
    ensures InProceedingsEntry(cx, p) == InProceedingsEntry(cx, p.(month := None))
  {
  }

  /** The techreport renderer reads the month but never prints it. */
  lemma TechReportIgnoresMonth(cx: Context, t: TechReport)
    ensures TechReportEntry(cx, t) == TechReportEntry(cx, t.(month := None))
  {
  }

  /** The access date is printed only when month, day and year are all present. */
  lemma UrlDateNeedsAllParts(cx: Context, u: Url)
    requires !Truthy(u.accessyear)
    ensures UrlEntry(cx, u) == UrlEntry(cx, u.(accessmonth := None, accessday := None))
  {
  }

  /** A detail block wrapped once more still closes the entry; in HTML inside two spans. */
  lemma WrappedDetailEnds(fmt: Format, first: string, second: string, raw: string)
    ensures var d := Block(fmt, raw); var r := Compose(fmt, first, second, Block(fmt, d));
      fmt == Html ==> |r| >= |d| + 7 && r[|r| - |d| - 7..] == d + "</span>"
    ensures var d := Block(fmt, raw); var r := Compose(fmt, first, second, Block(fmt, d));
      fmt != Html && d != "" ==> |r| >= |d| && r[|r| - |d|..] == d
  {
    if fmt == Html {
      HtmlWrappedDetailEnds(first, second, raw);
    } else if Block(fmt, raw) != "" {
      BlockIdempotent(fmt, raw);
      DetailEndsEntry(fmt, first, second, Block(fmt, raw));
    }
  }

  lemma HtmlWrappedDetailEnds(first: string, second: string, raw: string)
    ensures var d := Block(Html, raw); var r := Compose(Html, first, second, Block(Html, d));
      |r| >= |d| + 7 && r[|r| - |d| - 7..] == d + "</span>"
  {
    HtmlBlockNesting(raw);
    NestedSpanEnds(first, second, Block(Html, raw), Block(Html, Block(Html, raw)));
  }

  lemma NestedSpanEnds(first: string, second: string, d: string, c: string)
    requires c == "<span>" + d + "</span>"
    ensures var r := Compose(Html, first, second, c); |r| >= |d| + 7 && r[|r| - |d| - 7..] == d + "</span>"
  {
    DetailEndsEntry(Html, first, second, c);
    SpanEnds(d);
    SuffixOfSuffix(Compose(Html, first, second, c), c, d + "</span>");
  }

  lemma SpanEnds(d: string)
    ensures var w := "<span>" + d + "</span>"; |w| >= |d| + 7 && w[|w| - |d| - 7..] == d + "</span>"
  {
    var w := "<span>" + d + "</span>";
    assert w == "<span>" + (d + "</span>");
  }

  lemma SuffixOfSuffix(r: string, c: string, t: string)
    requires |r| >= |c| && r[|r| - |c|..] == c
    requires |c| >= |t| && c[|c| - |t|..] == t
    ensures |r| >= |t| && r[|r| - |t|..] == t
  {
    assert r[|r| - |t|..] == r[|r| - |c|..][|c| - |t|..];
  }

  /** The accessed date (or bare link) closes the url entry; in HTML inside two spans. */
  lemma UrlEntryEnds(cx: Context, u: Url)
    ensures var r := UrlEntry(cx, u); var d := DetailBlock(cx, UrlText(cx, u));
      cx.fmt == Html ==> |r| >= |d| + 7 && r[|r| - |d| - 7..] == d + "</span>"
    ensures var r := UrlEntry(cx, u); var d := DetailBlock(cx, UrlText(cx, u));
      cx.fmt != Html && d != "" ==> |r| >= |d| && r[|r| - |d|..] == d
  {
    WrappedDetailEnds(cx.fmt, HeadBlock(cx, UrlAuthor(cx, u)), HeadBlock(cx, UrlTitle(cx, u)),
                      cx.ext.punctuate(UrlText(cx, u), ".", ""));
  }

  /** The url detail is wrapped twice: a no-op for bbl and txt, nested spans in HTML. */
  lemma UrlDetailWrapping(cx: Context, u: Url)
    ensures cx.fmt != Html ==> Block(cx.fmt, DetailBlock(cx, UrlText(cx, u))) == DetailBlock(cx, UrlText(cx, u))
    ensures cx.fmt == Html ==>
      Block(cx.fmt, DetailBlock(cx, UrlText(cx, u))) == "<span>" + DetailBlock(cx, UrlText(cx, u)) + "</span>"
  {
    var raw := cx.ext.punctuate(UrlText(cx, u), ".", "");
    if cx.fmt == Html {
      HtmlBlockNesting(raw);
    } else {
      BlockIdempotent(cx.fmt, raw);
    }
  }

  /** In bbl and txt, "Accessed" follows the link's stripped block with no whitespace
      between them. */
  lemma UrlAccessedAdjoinsLink(cx: Context, u: Url)
    requires cx.fmt != Html && AccessDate(cx, u).Some?
    ensures var link := Block(cx.fmt, cx.ext.punctuate(u.url, ".", ""));
      UrlText(cx, u)[..|link|] == link &&
      UrlText(cx, u)[|link|..|link| + 9] == "Accessed " &&
      (link != "" ==> !IsSpace(link[|link| - 1]))
  {
  }
}

=== FILE: text.dfy ===
/** String utilities with Python's meaning: `str.strip`, `sep.join` and string ordering. */
module Text {

  /** Whitespace as Python 2's `unicode.strip` sees it (Unicode 5.2 white space). */
  const Whitespace: set<char> := {
    ' ', '\t', '\n', '\U{0B}', '\U{0C}', '\r', '\U{1C}', '\U{1D}', '\U{1E}', '\U{1F}',
    '\U{85}', '\U{A0}', '\U{1680}', '\U{180E}',
    '\U{2000}', '\U{2001}', '\U{2002}', '\U{2003}', '\U{2004}', '\U{2005}',
    '\U{2006}', '\U{2007}', '\U{2008}', '\U{2009}', '\U{200A}',
    '\U{2028}', '\U{2029}', '\U{202F}', '\U{205F}', '\U{3000}'
  }

  predicate IsSpace(c: char) {
    c in Whitespace
  }

  predicate AllSpace(s: string) {
    forall k :: 0 <= k < |s| ==> IsSpace(s[k])
  }

  /** Neither the first nor the last character is whitespace (vacuous for ""). */
  predicate Trimmed(s: string) {
    s == [] || (!IsSpace(s[0]) && !IsSpace(s[|s| - 1]))
  }

  /** How many whitespace characters `s` starts with. */
  function LeadingSpace(s: string): (n: nat)
    ensures n <= |s|
    ensures AllSpace(s[..n])
    ensures n == |s| || !IsSpace(s[n])
  {
    if |s| > 0 && IsSpace(s[0]) then
      var n := 1 + LeadingSpace(s[1..]);
      assert s[..n] == [s[0]] + s[1..][..n - 1];
      n
    else 0
  }

  /** How many whitespace characters `s` ends with. */
  function TrailingSpace(s: string): (n: nat)
    ensures n <= |s|
    ensures AllSpace(s[|s| - n..])
    ensures n == |s| || !IsSpace(s[|s| - n - 1])
  {
    if |s| > 0 && IsSpace(s[|s| - 1]) then
      var n := 1 + TrailingSpace(s[..|s| - 1]);
      assert s[|s| - n..] == s[..|s| - 1][|s| - n..] + [s[|s| - 1]];
      n
    else 0
  }

  /** `s.lstrip()`. */
  function TrimLeft(s: string): string {
    s[LeadingSpace(s)..]
  }

  /** `s.rstrip()`. */
  function TrimRight(s: string): string {
    s[..|s| - TrailingSpace(s)]
  }

  /** `s.strip()`. */
  function Strip(s: string): (r: string)
    ensures Trimmed(r)
    ensures r == [] <==> AllSpace(s)
  {
    var i := LeadingSpace(s);
    if i == |s| then
      assert s[..i] == s;
      []
    else
      var t := s[i..];
      NotAllSpace(s, i);
      TrailingSpaceBelow(t);
      t[..|t| - TrailingSpace(t)]
  }

  lemma NotAllSpace(s: string, i: nat)
    requires i < |s| && !IsSpace(s[i])
    ensures !AllSpace(s)
  {
  }

  /** A text that starts with a non-space keeps at least that character. */
  lemma TrailingSpaceBelow(t: string)
    requires |t| > 0 && !IsSpace(t[0])
    ensures TrailingSpace(t) < |t|
  {
    var j := TrailingSpace(t);
    assert t[|t| - j..] == t || j < |t|;
  }

  lemma {:induction false} TrimLeftPadded(a: string, t: string)
    requires AllSpace(a)
    requires t == [] || !IsSpace(t[0])
    ensures TrimLeft(a + t) == t
    decreases |a|
  {
    if |a| > 0 {
      assert (a + t)[1..] == a[1..] + t;
      TrimLeftPadded(a[1..], t);
    } else {
      assert a + t == t;
    }
  }

  lemma {:induction false} TrimRightPadded(t: string, b: string)
    requires AllSpace(b)
    requires t == [] || !IsSpace(t[|t| - 1])
    ensures TrimRight(t + b) == t
    decreases |b|
  {
    if |b| > 0 {
      assert (t + b)[..|t + b| - 1] == t + b[..|b| - 1];
      TrimRightPadded(t, b[..|b| - 1]);
    } else {
      assert t + b == t;
    }
  }

  /** Strip removes exactly the whitespace padding around a trimmed text: together
      with `Trimmed(Strip(s))` this pins `Strip` down to Python's `strip`. */
  lemma StripPadded(a: string, t: string, b: string)
    requires AllSpace(a) && AllSpace(b) && Trimmed(t)
    ensures Strip(a + t + b) == t
  {
    if t == [] {
      assert a + t + b == a + b;
      assert AllSpace(a + b);
    } else {
      assert a + t + b == a + (t + b);
      TrimLeftPadded(a, t + b);
      TrimRightPadded(t, b);
    }
  }

  lemma AllSpaceConcat(a: string, b: string)
    requires AllSpace(a) && AllSpace(b)
    ensures AllSpace(a + b)
  {
    forall k | 0 <= k < |a + b|
      ensures IsSpace((a + b)[k])
    {
      if k < |a| { assert (a + b)[k] == a[k]; } else { assert (a + b)[k] == b[k - |a|]; }
    }
  }

  /** Every string is its stripped text padded with whitespace on both sides. */
  lemma StripSplit(s: string) returns (a: string, b: string)
    ensures AllSpace(a) && AllSpace(b)
    ensures s == a + Strip(s) + b
  {
    var t := TrimLeft(s);
    a := s[..|s| - |t|];
    b := t[|TrimRight(t)|..];
    assert s == a + t;
    assert t == TrimRight(t) + b;
  }

  /** Stripping twice is stripping once. */
  lemma StripIdempotent(s: string)
    ensures Strip(Strip(s)) == Strip(s)
  {
    StripOfTrimmed(Strip(s));
  }

  /** A trimmed text is its own strip. */
  lemma StripOfTrimmed(t: string)
    requires Trimmed(t)
    ensures Strip(t) == t
  {
    assert [] + t + [] == t;
    StripPadded([], t, []);
  }

  /** Extra whitespace around a text does not change its strip. */
  lemma StripIgnoresPadding(a: string, s: string, b: string)
    requires AllSpace(a) && AllSpace(b)
    ensures Strip(a + s + b) == Strip(s)
  {
    var t := Strip(s);
    var a', b' := StripSplit(s);
    AllSpaceConcat(a, a');
    AllSpaceConcat(b', b);
    MergePadding(a, a', t, b', b);
    StripPadded(a + a', t, b' + b);
  }

  /** Padding around a padded text merges with the text's own padding. */
  lemma MergePadding(a: string, a': string, t: string, b': string, b: string)
    ensures a + (a' + t + b') + b == (a + a') + t + (b' + b)
  {
  }

  /** The regroupings below read a left-nested `+` chain as its first parts followed
      by the concatenation of its last two, three or five parts. */
  lemma GroupLastTwo(a: string, b: string, c: string)
    ensures a + b + c == a + (b + c)
  {
  }

  lemma GroupLastThree(a: string, b: string, c: string, d: string)
    ensures a + b + c + d == a + (b + c + d)
  {
  }

  lemma GroupLastFive(a: string, b: string, c: string, d: string, e: string, f: string, g: string)
    ensures a + b + c + d + e + f + g == a + b + (c + d + e + f + g)
  {
  }

  /** `sep.join(parts)`. */
  function Join(sep: string, parts: seq<string>): string
  {
    if |parts| == 0 then ""
    else if |parts| == 1 then parts[0]
    else parts[0] + sep + Join(sep, parts[1..])
  }

  lemma JoinSmall(sep: string, a: string, b: string, c: string)
    ensures Join(sep, [a]) == a
    ensures Join(sep, [a, b]) == a + sep + b
    ensures Join(sep, [a, b, c]) == a + sep + b + sep + c
  {
    assert [a, b][1..] == [b];
    assert Join(sep, [b, c]) == b + sep + c by { assert [b, c][1..] == [c]; }
    assert [a, b, c][1..] == [b, c];
    assert Join(sep, [a, b, c]) == a + sep + (b + sep + c);
    assert a + sep + (b + sep + c) == a + sep + b + sep + c;
  }

  /** Appending one more part adds the separator and the part at the end. */
  lemma {:induction false} JoinSnoc(sep: string, parts: seq<string>, p: string)
    requires |parts| > 0
    ensures Join(sep, parts + [p]) == Join(sep, parts) + sep + p
    decreases |parts|
  {
    if |parts| == 1 {
      assert parts + [p] == [parts[0], p];
    } else {
      assert (parts + [p])[1..] == parts[1..] + [p];
      JoinSnoc(sep, parts[1..], p);
    }
  }

  /** `"".join(parts)`, built from the left as a running `+=` builds it. */
  function Concat(parts: seq<string>): string
  {
    if |parts| == 0 then "" else Concat(parts[..|parts| - 1]) + parts[|parts| - 1]
  }

  lemma ConcatSnoc(parts: seq<string>, p: string)
    ensures Concat(parts + [p]) == Concat(parts) + p
  {
    assert (parts + [p])[..|parts|] == parts;
  }

  /** Joining two runs of parts is joining each, one after the other. */
  lemma {:induction false} ConcatAppend(a: seq<string>, b: seq<string>)
    ensures Concat(a + b) == Concat(a) + Concat(b)
    decreases |b|
  {
    if |b| == 0 {
      assert a + b == a;
    } else {
      var n := |b| - 1;
      ConcatAppend(a, b[..n]);
      assert a + b == (a + b[..n]) + [b[n]];
      ConcatSnoc(a + b[..n], b[n]);
      ConcatSnoc(b[..n], b[n]);
      assert b[..n] + [b[n]] == b;
      GroupLastTwo(Concat(a), Concat(b[..n]), b[n]);
    }
  }

  /** `[b for b in parts if b]`: the non-empty parts, in order. */
  function NonEmpty(parts: seq<string>): (r: seq<string>)
    ensures forall k :: 0 <= k < |r| ==> r[k] != ""
    ensures |r| <= |parts|
    ensures forall p :: p in parts && p != "" ==> p in r
    ensures forall p :: p in r ==> p in parts
  {
    if |parts| == 0 then []
    else
      var rest := NonEmpty(parts[1..]);
      assert forall p :: p in parts && p != parts[0] ==> p in parts[1..];
      if parts[0] == "" then rest else [parts[0]] + rest
  }

  /** Filtering a single part keeps it exactly when it is non-empty. */
  lemma NonEmptyOne(p: string)
    ensures NonEmpty([p]) == if p == "" then [] else [p]
  {
    assert [p][1..] == [];
  }

  /** Filtering distributes over concatenation, so the survivors keep their order. */
  lemma {:induction false} NonEmptyAppend(a: seq<string>, b: seq<string>)
    ensures NonEmpty(a + b) == NonEmpty(a) + NonEmpty(b)
    decreases |a|
  {
    if |a| == 0 {
      assert a + b == b;
    } else {
      assert (a + b)[0] == a[0];
      assert (a + b)[1..] == a[1..] + b;
      NonEmptyAppend(a[1..], b);
    }
  }

  /** Python's `<` on strings: code-point lexicographic order. */
  predicate LexLess(a: string, b: string)
    decreases |a|
  {
    |b| > 0 && (|a| == 0 || a[0] < b[0] || (a[0] == b[0] && LexLess(a[1..], b[1..])))
  }

  lemma {:induction false} LexLessTransitive(a: string, b: string, c: string)
    requires LexLess(a, b) && LexLess(b, c)
    ensures LexLess(a, c)
    decreases |a|
  {
    if |a| > 0 && a[0] == b[0] && b[0] == c[0] {
      LexLessTransitive(a[1..], b[1..], c[1..]);
    }
  }

  /** Distinct strings are always ordered one way or the other ... */
  lemma {:induction false} LexLessTotal(a: string, b: string)
    requires a != b
    ensures LexLess(a, b) || LexLess(b, a)
    decreases |a|
  {
    if |a| > 0 && |b| > 0 && a[0] == b[0] {
      assert a[1..] != b[1..] by {
        assert a == [a[0]] + a[1..] && b == [b[0]] + b[1..];
      }
      LexLessTotal(a[1..], b[1..]);
    }
  }

  /** ... and never both ways. */
  lemma {:induction false} LexLessAsymmetric(a: string, b: string)
    requires LexLess(a, b)
    ensures !LexLess(b, a)
    decreases |a|
  {
    if |a| > 0 && a[0] == b[0] {
      LexLessAsymmetric(a[1..], b[1..]);
    }
  }

  /** Python's `<` on the pairs `(len(s), s)`: shorter first, ties by string order. */
  predicate LengthThenLexLess(a: string, b: string) {
    |a| < |b| || (|a| == |b| && LexLess(a, b))
  }

  lemma LengthThenLexLessTransitive(a: string, b: string, c: string)
    requires LengthThenLexLess(a, b) && LengthThenLexLess(b, c)
    ensures LengthThenLexLess(a, c)
  {
    if |a| == |b| == |c| {
      LexLessTransitive(a, b, c);
    }
  }

  /** The pair order is a strict total order on strings. */
  lemma LengthThenLexLessTotal(a: string, b: string)
    ensures a == b || LengthThenLexLess(a, b) || LengthThenLexLess(b, a)
    ensures !(LengthThenLexLess(a, b) && LengthThenLexLess(b, a))
  {
    if a != b && |a| == |b| {
      LexLessTotal(a, b);
    }
    if LengthThenLexLess(a, b) && |a| == |b| {
      LexLessAsymmetric(a, b);
    }
  }
}
